=== FILE: README.md ===
# A verified model of the EE271 multiply-accumulate accelerator

The accelerator multiplies a matrix by a vector. It has three parts:

- sixteen **processing elements**, each holding one 64-bit accumulator;
- a **main buffer** with three memories: matrix, vector and output;
- a **sequencer**, which expands one compound instruction into `count + 1` pairs of a
  memory instruction and a processing-element instruction.

Each part exists twice:

- as a bit-accurate SystemC/HLS implementation (`part4/*.h`);
- as a Python reference ("golden") model (`processing_element.py`, `main_buffer.py`,
  `accelerator.py`).

This project models each version as written, in Dafny. The two versions are not
reconciled. Where they agree for the shared configuration, a separate module proves it.
Where they differ, that module exhibits the difference.

| file | module | models |
|---|---|---|
| `bits.dfy` | `Bits` | words as `nat`s below `2^w`; lanes, slices, two's complement, packing (LSB-first and MSB-first) |
| `wrappers.dfy` | `Wrappers` | `Option` and `Result` (Python exceptions become `Failure`s) |
| `isa.dfy` | `Isa` | instruction fields, and the abstract opcode constants `PeCodes` and `MemCodes` |
| `processing_element.dfy` | `ProcessingElement` | the hardware processing element: the lane table, RND, MAC, PASS, OUT, CLR, NOP, and one cycle (`Step`) |
| `main_buffer.dfy` | `MainBuffer` | the hardware buffer: one cycle of external writes, an output read, and READ, WRITE or NOP |
| `sequencer.dfy` | `Sequencer` | the hardware instruction loop (`Expand`) and its reference trace |
| `golden_pe.dfy` | `GoldenPe` | the Python processing element, with configurable widths and MSB-first lanes |
| `golden_buffer.dfy` | `GoldenBuffer` | the Python buffer: READ ports, the empty WRITE, and the memory setters |
| `golden_accelerator.dfy` | `GoldenAccelerator` | `validate`, the constructor, and `execute_instruction` composing the Python PE array and buffer |
| `agreement.dfy` | `Agreement` | agreement and divergence between the two versions, for input 32, accumulator 64 and output 32 |

Conventions:

- A word of width `w` is a `nat` below `2^w`.
- In the hardware, lane `i` of a word sits at bits `[i*w, i*w + w)`.
- The Python model works on bit strings whose index 0 is the most significant bit, so its
  slice `[i*w, i*w + w)` is lane `n - 1 - i`.
- Opcode and sub-opcode numbers live in a header that is not part of this model. They are
  fields of `PeCodes` and `MemCodes`, whose `Valid()` promises only that the codes fit
  their fields and are distinct.

Divergences shown in `Agreement`:

- **PASS source.** The hardware sign-extends the vector operand; Python sign-extends
  operand a, the matrix side.
- **Decode.** The hardware runs RND only for the RND opcode. Python runs RND for every
  opcode other than NO_VALUE.
- **Mode 3.** It means 32-bit lanes in the hardware element, but byte broadcast in the
  hardware buffer.
- **Offsets.** The hardware's 10-bit offset registers wrap at 1024, while the Python
  offsets keep counting.
- **CLR.** Python CLR also zeroes the output register; the hardware element has no output
  register.
- **WRITE.** The Python WRITE handler is empty, so mem2 is never written.

## Model

| member | source | states |
|---|---|---|
| ProcessingElement.PeMode | part4/ProcessingElement.h:83-101 | mode 0 selects 4 lanes of 8 bits with 16-bit accumulator lanes; mode 1 selects 2 lanes of 16 with 32-bit lanes; every other mode value, 3 included, selects one 32-bit lane with a 64-bit accumulator |
| ProcessingElement.PrecisionTiles | part4/ProcessingElement.h:83-101 | in every precision the lanes tile the 32-bit operand word and the 64-bit accumulator exactly, and an accumulator lane is twice as wide as an operand lane |
| ProcessingElement.Rnd | part4/ProcessingElement.h:79-101 | the result fits the accumulator; each lane's new signed value is the old signed value shifted right arithmetically, i.e. floor division by 2^shift, lane by lane |
| ProcessingElement.RndZeroIdentity | part4/ProcessingElement.h:79-101 | RND by 0 leaves the accumulator unchanged |
| ProcessingElement.MacProductExact | part4/ProcessingElement.h:119-136 | casting the product of two sign-extended operand lanes to the accumulator lane width loses nothing |
| ProcessingElement.MacLaneExact | part4/ProcessingElement.h:114-121 | one MAC lane is the accumulator lane plus the full signed product, wrapped to the lane width |
| ProcessingElement.Mac | part4/ProcessingElement.h:106-138 | every accumulator lane i becomes (signed lane + signed matrix lane i * signed vector lane i) mod 2^laneWidth; each lane depends only on lane i of its inputs |
| ProcessingElement.MacAccumulates | part4/ProcessingElement.h:117-121 | MAC into a lane holding the wrapped value s leaves the wrapped value of s + product, so repeated MACs accumulate and wrap |
| ProcessingElement.Pass | part4/ProcessingElement.h:140-162 | every accumulator lane holds vector lane i sign-extended: the same signed value at the wider width |
| ProcessingElement.PassIgnoresAccumulatorAndMatrix | part4/ProcessingElement.h:140-162 | a PASS cycle's outcome depends on neither the prior accumulator nor the matrix operand, and the new accumulator is the PASS of the vector operand |
| ProcessingElement.Out | part4/ProcessingElement.h:164-183 | the output word fits 32 bits, and its lane i holds the low operand-width bits of accumulator lane i |
| ProcessingElement.OutTruncates | part4/ProcessingElement.h:167-181 | OUT of a lane holding the wrapped value s outputs s wrapped to the operand lane width |
| ProcessingElement.PassOutLane | part4/ProcessingElement.h:145-181 | after PASS, OUT lane i gives back vector lane i |
| ProcessingElement.PassThenOut | part4/ProcessingElement.h:145-181 | PASS then OUT in the same precision outputs exactly the vector operand |
| ProcessingElement.Step | part4/ProcessingElement.h:71-191 | the accumulator stays within 64 bits; RND gives the RND of the accumulator by the value field, MAC the MAC of the popped operands, and PASS the PASS of the popped vector operand, each in the decoded precision; a cycle pops the operand channels exactly for MAC and PASS; it pushes an output exactly for OUT, that output is the OUT word of the accumulator, and the accumulator is kept; CLR zeroes the accumulator; NOP and unknown sub-opcodes keep it |
| ProcessingElement.ClearMacMac | part4/ProcessingElement.h:106-186 | after CLR and two MACs, every lane holds the wrapped sum of the two lane products |
| ProcessingElement.ClearMacMacOut | part4/ProcessingElement.h:106-186 | after CLR, two MACs and OUT, every output lane is the sum of the two lane products wrapped to the operand lane width |
| MainBuffer.ExternalWrite | part4/MainBuffer.h:84-94 | the data word is consumed exactly when both address and data are present; only then is the addressed cell written, and no other cell changes |
| MainBuffer.ExternalPhase | part4/MainBuffer.h:84-98 | the external requests leave the output memory alone; a word is returned exactly when a read address is present, and it is output[addr] |
| MainBuffer.VectorOperand | part4/MainBuffer.h:127-157 | mode 2 takes vector[offset] whole; mode 1 gives a word whose two halves are half (offset & 1) of vector[offset >> 1]; any other mode gives a word whose four bytes are byte (offset & 3) of vector[offset >> 2] |
| MainBuffer.HalfWordBroadcast | part4/MainBuffer.h:133-143 | both 16-bit halves of the result hold the selected half of the raw word |
| MainBuffer.ByteBroadcast | part4/MainBuffer.h:144-157 | all four bytes of the result hold the selected byte of the raw word |
| MainBuffer.StoreRow | part4/MainBuffer.h:165-171 | the stored cells hold the lane words in order from the base, and every other cell is unchanged |
| MainBuffer.RowRoundTrip | part4/MainBuffer.h:118-171 | READ's row addressing and WRITE's store loop use the same N_PE cells for a row: the words WRITE stores at row * N_PE are exactly the words a READ of that row returns |
| MainBuffer.Dispatch | part4/MainBuffer.h:113-175 | a memory instruction never changes the matrix or vector memory; only WRITE touches the output memory, and only WRITE drains the lanes' output words |
| MainBuffer.Cycle | part4/MainBuffer.h:81-176 | a cycle keeps the size of every memory |
| MainBuffer.ExternalWriteEffect | part4/MainBuffer.h:84-94 | over a whole cycle, the matrix and vector data words are each consumed exactly when address and data are both present, each external write changes exactly its addressed cell, and the output memory changes only through WRITE |
| MainBuffer.OutputReadEffect | part4/MainBuffer.h:96-98 | an output read returns the output word as it was at the start of the cycle |
| MainBuffer.ReadEffect | part4/MainBuffer.h:118-163 | READ sends lane i the matrix word at row * N_PE + i as left by the external writes, sends every lane the same vector operand, and writes nothing |
| MainBuffer.ReadSeesSameCycleWrite | part4/MainBuffer.h:84-125 | a READ returns a matrix word written by the same cycle's external write |
| MainBuffer.ReadSeesSameCycleVectorWrite | part4/MainBuffer.h:89-131 | a mode-2 READ returns, on every lane, a vector word written by the same cycle's external write |
| MainBuffer.WriteEffect | part4/MainBuffer.h:165-171 | WRITE stores lane i's word at row * N_PE + i, changes no other output cell, and sends nothing to the lanes |
| MainBuffer.IdleEffect | part4/MainBuffer.h:173-175 | NOP, an unknown opcode or no instruction does only the external requests |
| MainBuffer.ReadHalfWord | part4/MainBuffer.h:133-143 | in mode 1, both halves of the broadcast word equal bits [16 * (offset & 1), +16) of vector[offset >> 1] |
| Sequencer.Advance | part4/Accelerator.h:256-261 | one step of a 10-bit offset register: +1 when the flag is set, 1023 wraps to 0, unchanged when the flag is clear |
| Sequencer.AdvanceOffsetAt | part4/Accelerator.h:238-261 | advancing the register at iteration k gives (base + k + 1) mod 1024 when the flag is set, and the base otherwise |
| Sequencer.Expand | part4/Accelerator.h:227-264 | the loop issues exactly count + 1 iterations, and its invariant keeps the counter below 2^11, so count 1023 terminates; iteration k issues the memory instruction with offsets (base + k) mod 1024 where enabled, and the PE instruction to each of the 16 lanes |
| Sequencer.ExpandIsTrace | part4/Accelerator.h:241-264 | the loop's output is the reference trace |
| Sequencer.TraceShape | part4/Accelerator.h:231-253 | every iteration keeps the embedded opcode and mode, gives all N_PE lanes the embedded PE instruction, and issues 10-bit offsets |
| Sequencer.FirstIssueUsesBase | part4/Accelerator.h:238-244 | iteration 0 issues the embedded memory instruction unchanged, whatever the flags |
| Sequencer.ConsecutiveIssues | part4/Accelerator.h:256-261 | iteration k + 1's offsets are iteration k's advanced by the flags |
| Sequencer.NoIncrementRepeats | part4/Accelerator.h:241-261 | with both flags clear, every iteration carries the base offsets |
| Sequencer.IncrementVisitsDistinctRows | part4/Accelerator.h:233-261 | with the matrix flag set, no two iterations of one instruction use the same matrix row |
| Sequencer.ProgramBlock | part4/Accelerator.h:227-239 | in a program, iteration k of instruction j is the k-th issue of that instruction alone, so no offset state carries over |
| Sequencer.ProgramLength | part4/Accelerator.h:227-241 | a program issues the sum of count + 1 over its instructions |
| GoldenPe.Init | processing_element.py:13-26 | creation fails with CreationError exactly when one of the three widths is 0, since a bit string of length 0 cannot hold an integer; otherwise the element is well sized and every register holds 0 |
| GoldenPe.InputA | processing_element.py:28-29 | latching operand a replaces only that latch |
| GoldenPe.InputB | processing_element.py:31-32 | latching operand b replaces only that latch |
| GoldenPe.LaneGeometry | processing_element.py:64-66 | lane count INPUT // m and lane width ACC // n; they fail (ZeroDivisionError) exactly when m is 0 or wider than INPUT; otherwise the lanes tile both registers |
| GoldenPe.GeometryIgnoresOutputWidth | processing_element.py:64-66 | the lane geometry does not depend on OUTPUT_BITWIDTH |
| GoldenPe.StandardGeometry | processing_element.py:64-66 | for INPUT 32 and ACC 64, modes 8, 16 and 32 give 4x16, 2x32 and 1x64 accumulator lanes, for any output width |
| GoldenPe.MacAcc | processing_element.py:62-80 | every accumulator lane becomes (signed lane + signed a lane * signed b lane) masked to the lane width |
| GoldenPe.MacAccumulates | processing_element.py:68-78 | MAC into a lane holding the wrapped value t leaves the wrapped t + a * b, so MACs accumulate and overflow wraps |
| GoldenPe.PassAcc | processing_element.py:101-114 | PASS succeeds exactly when every sign-extended operand-a lane fits the lane width, and then lane j holds operand-a lane j's signed value; otherwise the bit-string creation error |
| GoldenPe.PassAccDependsOnlyOnA | processing_element.py:106-112 | the PASS result is a function of operand a alone |
| GoldenPe.PassIgnoresAccumulatorAndB | processing_element.py:101-114 | executing PASS gives the same outcome and accumulator for any operand b and prior accumulator |
| GoldenPe.PassFitsWhenWider | processing_element.py:108-110 | when the accumulator lane is at least as wide as the mode, PASS cannot fail |
| GoldenPe.RndAcc | processing_element.py:126-139 | each whole accumulator lane's signed value is shifted right arithmetically by the value field |
| GoldenPe.RndZeroIdentity | processing_element.py:126-139 | RND by 0 leaves the accumulator unchanged |
| GoldenPe.OutValue | processing_element.py:82-99 | the output fits OUTPUT bits and is the lane pieces joined MSB lane first, keeping the low OUTPUT bits; a shorter join is zero-padded on the left, which keeps its value |
| GoldenPe.OutLane | processing_element.py:82-99 | output lane j holds the low bits of accumulator lane j, for every lane the output width keeps whole |
| GoldenPe.PassThenOut | processing_element.py:82-114 | PASS then OUT, in a mode no wider than an accumulator lane, outputs operand a cut to OUTPUT bits |
| GoldenPe.StandardMode | processing_element.py:64-66 | each standard mode of the 32/64/32 element has a geometry that tiles the registers, with the mode no wider than an accumulator lane |
| GoldenPe.PassThenOutStandard | processing_element.py:82-114 | with 32/64/32 widths, PASS then OUT outputs operand a exactly, in every standard mode |
| GoldenPe.Execute | processing_element.py:35-53 | NO_VALUE dispatches on the value field (MAC, NOP, OUT, PASS, CLR; anything else changes nothing), and every other opcode runs RND; the call fails exactly on a zero division or a PASS overflow; the latches never change; only OUT and CLR write the output; CLR zeroes the accumulator and the output; OUT keeps the accumulator |
| GoldenBuffer.Init | main_buffer.py:27-34 | creation fails with CreationError exactly when a memory width is 0, because the ports are created whatever the depths; otherwise the memories have their configured depths and every word and port holds 0 |
| GoldenBuffer.HalfWordOperand | main_buffer.py:59-65 | an odd offset takes the upper 16 bits, an even one the lower 16; the port holds that half twice |
| GoldenBuffer.HandleRead | main_buffer.py:48-76 | READ fails with IndexError exactly when an index is past the end; it sets the mem0 port to mem0[mema] whole and, in 32-bit mode, the mem1 port to mem1[memb]; it changes nothing else |
| GoldenBuffer.Execute | main_buffer.py:36-46 | READ gives exactly the READ handler's result, and only READ can fail; no opcode changes mem0, mem1, mem2 or the mem2 input port; anything but READ, WRITE included, leaves the buffer unchanged |
| GoldenBuffer.WriteMem2Output | main_buffer.py:94-95 | writing the mem2 input port changes only that port |
| GoldenBuffer.LoadInts | main_buffer.py:97-107 | ValueError exactly when the length is not the depth; a creation error exactly when some integer does not fit the width as a signed number; otherwise each integer is stored in two's complement |
| GoldenBuffer.LoadBits | main_buffer.py:109-119 | ValueError exactly when the length is not the depth; otherwise the list is stored as given |
| GoldenBuffer.SetMem0 | main_buffer.py:97-101 | loading mem0 from integers fails as the loader does, and otherwise replaces only mem0, with the loader's two's-complement words |
| GoldenBuffer.SetMem1 | main_buffer.py:103-107 | loading mem1 from integers fails as the loader does, and otherwise replaces only mem1, with the loader's two's-complement words |
| GoldenBuffer.SetMem0Bits | main_buffer.py:109-113 | fails exactly when the length is not the depth, and otherwise mem0 becomes the list |
| GoldenBuffer.SetMem1Bits | main_buffer.py:115-119 | fails exactly when the length is not the depth, and otherwise mem1 becomes the list |
| GoldenBuffer.ReadMem2 | main_buffer.py:121-122 | one signed integer per mem2 word, each the word's two's-complement reading |
| GoldenBuffer.SetMem0RoundTrip | main_buffer.py:97-101 | integers that fit, loaded into mem0, read back as the same signed integers |
| GoldenBuffer.SetMem1RoundTrip | main_buffer.py:103-107 | integers that fit, loaded into mem1, read back as the same signed integers |
| GoldenBuffer.ReadHalfWord32 | main_buffer.py:59-65 | with 32-bit mem1, 16-bit READ succeeds, and both halves of the port equal bits [16 * (offset & 1), +16) of mem1[offset >> 1] |
| GoldenAccelerator.Validate | accelerator.py:20-33 | the configuration passes exactly when PE_COUNT * INPUT = MEM0 width, INPUT = MEM1 width and PE_COUNT * OUTPUT = MEM2 width (with nonzero widths); a zero input or output width is the division error, in check order |
| GoldenAccelerator.New | accelerator.py:39-58 | construction fails with validation's error when validation fails, and otherwise with CreationError exactly when the counter width, the element count or the accumulator width is 0; a constructed accelerator is consistent and holds PE_COUNT fresh elements and a fresh buffer |
| GoldenAccelerator.MemInstAt | accelerator.py:85-93 | iteration k keeps opcode and mode, and its offsets are the bases plus k where the flag is set |
| GoldenAccelerator.JoinOutputs | accelerator.py:96-98 | the joined word has element j's output in the j-th OUTPUT-bit piece from the top |
| GoldenAccelerator.ABusPiece | accelerator.py:103-104 | element j's piece of the mem0 port is an INPUT-bit value |
| GoldenAccelerator.Latch | accelerator.py:106-108 | element j latches its mem0 piece as a and the mem1 port as b, and nothing else changes |
| GoldenAccelerator.StepFrom | accelerator.py:110-111 | elements j, j + 1, ... all succeed exactly when each does on its own; the first ones are left alone, and each later one ends as its own execution leaves it |
| GoldenAccelerator.Iteration | accelerator.py:91-111 | an iteration keeps the state consistent and never changes mem0, mem1 or mem2 |
| GoldenAccelerator.ReadPortFits | accelerator.py:103-105 | the mem1 port that a READ leaves is an INPUT-bit operand |
| GoldenAccelerator.IterationsStep | accelerator.py:91-111 | the run from iteration k is iteration k and then the rest, and stops at the first error |
| GoldenAccelerator.Iterations | accelerator.py:91-111 | a successful run of iterations keeps the state consistent |
| GoldenAccelerator.ExecuteInstruction | accelerator.py:77-113 | the loop computes the reference run of count + 1 iterations |
| GoldenAccelerator.IterationAt | accelerator.py:91-93 | the loop body computes iteration i with offsets base + i * flag, and the rest of the run continues from its result |
| GoldenAccelerator.RunIteration | accelerator.py:95-111 | the statement sequence of one iteration computes the reference iteration |
| GoldenAccelerator.LatchAll | accelerator.py:106-108 | the latch loop latches every element's operands; its counter shadows the outer one without changing the offsets |
| GoldenAccelerator.StepAll | accelerator.py:110-111 | the element loop computes the reference element pass |
| GoldenAccelerator.ReadFeedsElements | accelerator.py:102-111 | a READ iteration hands element j the j-th INPUT-bit piece of mem0[mema], MSB piece first, and every element the same operand-wide mem1 port; in 32-bit mode that port is mem1[memb]; element j then ends as the PE instruction leaves it with those operands latched |
| GoldenAccelerator.WriteLatchesOutputs | accelerator.py:95-111 | a WRITE iteration puts the pre-iteration outputs on the mem2 input port, element j in the j-th piece from the top, and mem2 stays unchanged; element j then ends as the PE instruction leaves its own state |
| GoldenAccelerator.ElementsRunSameInstruction | accelerator.py:110-111 | for a memory opcode other than READ and WRITE, an iteration succeeds exactly when every element succeeds on the PE instruction, and then the buffer is unchanged and element j ends as its own execution leaves it (the READ and WRITE cases are in ReadFeedsElements and WriteLatchesOutputs) |
| GoldenAccelerator.RunKeepsMemories | accelerator.py:91-111 | no compound instruction changes mem0, mem1 or mem2 |
| Agreement.ModeBits | part4/ProcessingElement.h:83-101 | hardware modes 0, 1 and 2 stand for 8-, 16- and 32-bit lanes, and each divides the shared widths |
| Agreement.HwGeometry | part4/ProcessingElement.h:83-101 | the hardware lane table of a mode, as a reference geometry, tiles the 32/64 registers |
| Agreement.GeometryAgrees | processing_element.py:64-66 | the reference geometry of each standard mode is the hardware lane table |
| Agreement.MacLaneMatches | processing_element.py:62-80 | MAC lane k of the reference and of the hardware agree when the geometries match |
| Agreement.MacLaneAgrees | processing_element.py:62-80 | MAC lane k agrees in every hardware mode |
| Agreement.MacAgrees | processing_element.py:62-80 | the reference MAC accumulator equals the hardware one, with operand a as the matrix operand and operand b as the vector operand |
| Agreement.RndAgrees | processing_element.py:126-139 | the reference RND accumulator equals the hardware one, for every shift |
| Agreement.OutAgrees | processing_element.py:82-99 | the reference OUT value equals the word the hardware pushes |
| Agreement.PassSources | processing_element.py:101-114 | reference PASS succeeds and equals hardware PASS applied to operand a |
| Agreement.PassSourcesDiffer | part4/ProcessingElement.h:140-162 | with different operands a and b, the reference PASS and the hardware PASS leave different accumulators |
| Agreement.OtherOpcodeDiverges | processing_element.py:37-51 | for an opcode that is neither RND nor NO_VALUE, the reference runs RND with the value as the shift, while the hardware decodes the value as a sub-opcode |
| Agreement.Mode3Mismatch | part4/MainBuffer.h:144-157 | mode 3 computes 32-bit lanes in the element but broadcasts a byte in the buffer |
| Agreement.HalfWordAgrees | main_buffer.py:59-65 | the reference 16-bit operand of a 32-bit word equals the hardware mode-1 broadcast |
| Agreement.ReadOperandAgrees | main_buffer.py:57-65 | with 32-bit mem1, the reference READ operand b in 16- or 32-bit mode is the hardware vector operand of mode 1 or 2, between two independent definitions; the 8-bit case holds by construction, because the model's 8-bit branch is the hardware byte selection |
| Agreement.OffsetsAgree | accelerator.py:89-93 | both versions run count + 1 iterations, and iteration k uses the same offsets while they stay below 1024 |
| Agreement.OffsetWrapDiverges | part4/Accelerator.h:256-258 | past 1023, the hardware offset wraps to the start while the reference offset keeps counting |

## Left out

- SystemC plumbing is not modelled: clocks, resets, `wait()`, and blocking versus non-blocking channel timing. A cycle is a function of the channel heads, given as `Option`s, and lane traffic is sequences.
- The hardware accelerator's constructor, which wires up the sixteen processing elements, is not modelled: it is pure structure. `N_PE = 16` is taken from its instances.
- `Spec.h` and `InstructionSpec.h` are not part of this model. The packed layouts, numeric opcodes and memory depth are abstract. The vector word is 32 bits.
- The hardware does not check memory indices. `MainBuffer.InBounds` requires them to be in range instead.
- The Python `instruction` and `assembler` modules are not part of this model. Golden instructions carry the mode as a bit width.
- `GoldenAccelerator.ExecuteInstruction`: the Python loop rewrites the offsets of the memory instruction object that `get_mem_instruction()` returns (`accelerator.py:80,92-93`). If that getter returns the stored object, the caller's instruction keeps the last iteration's offsets, and a later run of the same instruction starts from them. The getter is not part of this model, so `GoldenInstruction` is immutable and every run starts from the embedded base offsets. The hardware always works on a local copy (`part4/Accelerator.h:230`).
- `GoldenAccelerator.MemInstAt`: the Python offset setters' field width is not visible. Offsets are plain sums, so a value past the 10-bit field is kept whole.
- `main_buffer.py:66-76`, the 8-bit READ branch, is not modelled as written. It compares a bit-string slice with integer literals, so its result depends on library equality semantics. The model uses the hardware's byte selection (`part4/MainBuffer.h:144-157`) for it.
- The bit-string library's internals (`_overwrite`, `cut`, `join`) become the slice and pack helpers of `Bits`.
- `GoldenAccelerator.Validate`: `validate` compares the element count with a float quotient (`accelerator.py:24,32`), while the model compares integer products. The two agree whenever every width and the element count are below 2^53. A quotient that is not a whole number then differs from the count by at least 1/INPUT, which is more than the rounding error. Two differences remain unmodelled. First, rounding on larger values: for PE_COUNT = 2^53, INPUT = 3 and MEM0 = 3 * 2^53 + 1, Python passes the check while the model reports `PeCountMismatch`. Second, the OverflowError that the division raises when a MEM0 or MEM2 width is too large for a float.
- `GoldenPe.Execute` and `GoldenPe.LaneGeometry`: require a mode that divides the widths exactly (`PeConfig.Divides`), or one that raises ZeroDivisionError. When INPUT is not a multiple of m, MAC reads m-bit slices (`processing_element.py:69-70`) while PASS reads slices of INPUT // n bits through `get_indices` (`processing_element.py:56-60,109`), so the handlers disagree on the lanes. When ACC is not a multiple of n, PASS also builds an accumulator of n * vw bits, narrower than ACC. Neither case is modelled.
- `GoldenPe.WellSized`: every register is assumed to hold its configured width. The `_bits` setters accept bit strings of any width; `GoldenAccelerator.Consistent` takes mem0 and mem1 words of their memory's width.
- `GoldenAccelerator.Runnable`: a 16-bit or 8-bit READ requires a 32-bit mem1, so the broadcast port is as wide as an operand. With other widths the Python operand b would change width.
- A Python exception ends the model's execution: the state changed before the exception is not kept.
- The constructors' default values are modelled as 0 only.
- The Python counter register is modelled only at construction, where a width of 0 fails; execution never reads it.
- `read_mem0_output`, `read_mem1_output`, `read_mem2_bits`, `get_output` and `get_accumulation` are plain getters, modelled as field reads.
- `execute_instructions` is a loop over `execute_instruction`. For the hardware, a program is modelled by `Sequencer.ProgramTrace`.
- The hardware buffer sends N_PE matrix words per READ, while Python reads one wide mem0 word and cuts it. These are not related by a lemma.
- The test harness (`test_processing_element.py`) is not modelled.

=== FILE: agreement.dfy ===
/**
  How the hardware implementation and the reference model relate, for the configuration
  they share: 32-bit operands, a 64-bit accumulator and 32-bit outputs, with hardware
  modes 0, 1 and 2 standing for 8-, 16- and 32-bit lanes.

  Where they agree (MAC, RND, OUT, the vector operand of a READ, the offsets of an
  unwrapped loop) the lemmas say so as equalities; where they differ (the PASS source,
  opcodes other than RND and NO_VALUE, mode 3, offsets past 1023) the lemmas exhibit the
  difference.
 */
module Agreement {
  import opened Bits
  import opened Wrappers
  import opened Isa
  import ProcessingElement
  import MainBuffer
  import Sequencer
  import GoldenPe
  import GoldenBuffer
  import GoldenAccelerator

  /** The shared configuration of a processing element. */
  const STD := GoldenPe.PeConfig(32, 64, 32)

  /** The lane width that hardware mode 0, 1 or 2 selects. */
  function ModeBits(mode: nat): (m: nat)
    requires mode < 3
    ensures m == ProcessingElement.PeMode(mode).InWidth()
    ensures STD.Valid() && STD.Divides(m)
  {
    if mode == 0 then 8 else if mode == 1 then 16 else 32
  }

  /** The hardware lane table of a mode as a reference geometry. */
  function HwGeometry(mode: nat): (g: GoldenPe.Geometry)
    requires mode < 3
    ensures g.Tiles(STD)
    ensures var p := ProcessingElement.PeMode(mode);
      g.n == p.LaneCount() && g.m == p.InWidth() && g.vw == p.AccWidth()
  {
    var p := ProcessingElement.PeMode(mode);
    ProcessingElement.PrecisionTiles(p);
    GoldenPe.Geometry(p.LaneCount(), p.InWidth(), p.AccWidth())
  }

  /** The reference geometry of each standard mode is the hardware lane table. */
  lemma GeometryAgrees(mode: nat)
    requires mode < 3
    ensures GoldenPe.LaneGeometry(STD, ModeBits(mode)) == Some(HwGeometry(mode))
    ensures HwGeometry(mode).Tiles(STD)
  {
    GoldenPe.StandardGeometry(32);
  }

  // ---------------------------------------------------------------------------
  // The processing element
  // ---------------------------------------------------------------------------

  /** MAC: the reference accumulator equals the hardware one, operand a in the matrix
      position and operand b in the vector position. */
  lemma MacAgrees(s: GoldenPe.PeState, mode: nat)
    requires mode < 3 && GoldenPe.WellSized(STD, s)
    ensures GoldenPe.MacAcc(STD, s, HwGeometry(mode))
         == ProcessingElement.Mac(s.acc, s.inputA, s.inputB, ProcessingElement.PeMode(mode))
  {
    var g := HwGeometry(mode);
    var p := ProcessingElement.PeMode(mode);
    var x := GoldenPe.MacAcc(STD, s, g);
    var y := ProcessingElement.Mac(s.acc, s.inputA, s.inputB, p);
    GeometryAgrees(mode);
    ProcessingElement.PrecisionTiles(p);
    forall k | 0 <= k < g.n
      ensures Lane(x, k, g.vw) == Lane(y, k, g.vw)
    {
      MacLaneAgrees(s, mode, k);
    }
    LanesDetermine(x, y, g.n, g.vw);
  }

  /** MAC lane k of the reference and of the hardware hold the same value. */
  lemma MacLaneAgrees(s: GoldenPe.PeState, mode: nat, k: nat)
    requires mode < 3 && GoldenPe.WellSized(STD, s) && k < HwGeometry(mode).n
    ensures var g := HwGeometry(mode);
      Lane(GoldenPe.MacAcc(STD, s, g), k, g.vw)
        == Lane(ProcessingElement.Mac(s.acc, s.inputA, s.inputB, ProcessingElement.PeMode(mode)), k, g.vw)
  {
    MacLaneMatches(s, HwGeometry(mode), ProcessingElement.PeMode(mode), k);
  }

  /** MAC lane k agrees whenever the reference geometry is the hardware lane table of p. */
  lemma MacLaneMatches(s: GoldenPe.PeState, g: GoldenPe.Geometry, p: ProcessingElement.Precision, k: nat)
    requires g.Tiles(STD) && k < g.n
    requires g.n == p.LaneCount() && g.m == p.InWidth() && g.vw == p.AccWidth()
    ensures Lane(GoldenPe.MacAcc(STD, s, g), k, g.vw) == Lane(ProcessingElement.Mac(s.acc, s.inputA, s.inputB, p), k, g.vw)
  {
  }

  /** RND: the reference accumulator equals the hardware one for every shift. */
  lemma RndAgrees(s: GoldenPe.PeState, mode: nat, shift: nat)
    requires mode < 3 && GoldenPe.WellSized(STD, s)
    ensures GoldenPe.RndAcc(STD, s, HwGeometry(mode), shift)
         == ProcessingElement.Rnd(s.acc, ProcessingElement.PeMode(mode), shift)
  {
    var g := HwGeometry(mode);
    var p := ProcessingElement.PeMode(mode);
    var x := GoldenPe.RndAcc(STD, s, g, shift);
    var y := ProcessingElement.Rnd(s.acc, p, shift);
    GeometryAgrees(mode);
    ProcessingElement.PrecisionTiles(p);
    forall k | 0 <= k < g.n
      ensures Lane(x, k, g.vw) == Lane(y, k, g.vw)
    {
      SignedDetermines(Lane(x, k, g.vw), Lane(y, k, g.vw), g.vw);
    }
    LanesDetermine(x, y, g.n, g.vw);
  }

  /** OUT: the reference output equals the word the hardware pushes. */
  lemma OutAgrees(s: GoldenPe.PeState, mode: nat)
    requires mode < 3 && GoldenPe.WellSized(STD, s)
    ensures GoldenPe.OutValue(STD, s, HwGeometry(mode)) == ProcessingElement.Out(s.acc, ProcessingElement.PeMode(mode))
  {
    var g := HwGeometry(mode);
    var p := ProcessingElement.PeMode(mode);
    var x := GoldenPe.OutValue(STD, s, g);
    var y := ProcessingElement.Out(s.acc, p);
    GeometryAgrees(mode);
    ProcessingElement.PrecisionTiles(p);
    assert GoldenPe.PieceWidth(g) == g.m;
    forall k | 0 <= k < g.n
      ensures Lane(x, k, g.m) == Lane(y, k, g.m)
    {
      assert (k + 1) * g.m <= g.n * g.m by {
        MulMonotone(k + 1, g.n, g.m);
      }
      GoldenPe.OutLane(STD, s, g, k);
    }
    LanesDetermine(x, y, g.n, g.m);
  }

  /** PASS: the reference sign-extends operand a, which comes from the matrix memory,
      where the hardware sign-extends the vector operand. */
  lemma PassSources(s: GoldenPe.PeState, mode: nat)
    requires mode < 3 && GoldenPe.WellSized(STD, s)
    ensures GoldenPe.PassFits(s, HwGeometry(mode))
    ensures GoldenPe.PassAcc(STD, s, HwGeometry(mode))
         == Success(ProcessingElement.Pass(s.inputA, ProcessingElement.PeMode(mode)))
  {
    var g := HwGeometry(mode);
    var p := ProcessingElement.PeMode(mode);
    GeometryAgrees(mode);
    ProcessingElement.PrecisionTiles(p);
    GoldenPe.PassFitsWhenWider(s, g);
    var x := GoldenPe.PassAcc(STD, s, g).value;
    var y := ProcessingElement.Pass(s.inputA, p);
    forall k | 0 <= k < g.n
      ensures Lane(x, k, g.vw) == Lane(y, k, g.vw)
    {
      SignedDetermines(Lane(x, k, g.vw), Lane(y, k, g.vw), g.vw);
    }
    LanesDetermine(x, y, g.n, g.vw);
  }

  /** With different operands a and b, a reference PASS and a hardware PASS of the same
      registers leave different accumulators. */
  lemma PassSourcesDiffer(codes: PeCodes, s: GoldenPe.PeState, mode: nat)
    requires codes.Valid() && mode < 3 && GoldenPe.WellSized(STD, s) && s.inputA != s.inputB
    ensures GoldenPe.PassAcc(STD, s, HwGeometry(mode)).Success?
    ensures GoldenPe.PassAcc(STD, s, HwGeometry(mode)).value
         != ProcessingElement.Step(codes, s.acc, PeInst(codes.noValue, mode, codes.pass), s.inputA, s.inputB).acc
  {
    var p := ProcessingElement.PeMode(mode);
    PassSources(s, mode);
    ProcessingElement.PassThenOut(s.inputA, p);
    ProcessingElement.PassThenOut(s.inputB, p);
  }

  /** An opcode that is neither RND nor NO_VALUE: the reference runs RND with the value
      field as the shift, while the hardware decodes the value field as a sub-opcode, as
      for NO_VALUE. */
  lemma OtherOpcodeDiverges(codes: PeCodes, s: GoldenPe.PeState, mode: nat, op: nat, value: nat)
    requires codes.Valid() && mode < 3 && GoldenPe.WellSized(STD, s)
    requires op != codes.rnd && op != codes.noValue
    ensures GoldenPe.Execute(STD, codes, s, GoldenPe.GoldenPeInst(op, ModeBits(mode), value))
         == Success(s.(acc := ProcessingElement.Rnd(s.acc, ProcessingElement.PeMode(mode), value)))
    ensures ProcessingElement.Step(codes, s.acc, PeInst(op, mode, value), s.inputA, s.inputB)
         == ProcessingElement.Step(codes, s.acc, PeInst(codes.noValue, mode, value), s.inputA, s.inputB)
  {
    GeometryAgrees(mode);
    RndAgrees(s, mode, value);
  }

  /** Mode 3: the processing element computes in 32-bit lanes, as for mode 2, while the
      buffer broadcasts a byte, as for mode 0. */
  lemma Mode3Mismatch(vector: seq<nat>, membOffset: nat)
    requires membOffset / 4 < |vector|
    ensures ProcessingElement.PeMode(3) == ProcessingElement.PeMode(2)
    ensures MainBuffer.VectorOperand(vector, 3, membOffset) == MainBuffer.VectorOperand(vector, 0, membOffset)
  {
  }

  // ---------------------------------------------------------------------------
  // The buffer
  // ---------------------------------------------------------------------------

  /** The reference 16-bit operand of a 32-bit word is the hardware's mode-1 broadcast. */
  lemma HalfWordAgrees(word: nat, membOffset: nat)
    requires word < Pow2(32)
    ensures GoldenBuffer.HalfWordOperand(32, word, membOffset) == MainBuffer.HalfWordBroadcast(word, membOffset % 2)
  {
    var x := GoldenBuffer.HalfWordOperand(32, word, membOffset);
    var y := MainBuffer.HalfWordBroadcast(word, membOffset % 2);
    assert GoldenBuffer.HalfWidth(32) == 16;
    assert 2 * 16 == 32;
    LanesDetermine(x, y, 2, 16);
  }

  /** With a 32-bit mem1, the operand b a reference READ loads in the 16- or 32-bit mode
      is the vector operand the hardware READ sends in mode 1 or 2. The 8-bit case is
      included but holds by construction: the reference 8-bit branch is modelled as the
      hardware's byte selection. */
  lemma ReadOperandAgrees(cfg: GoldenBuffer.BufferConfig, b: GoldenBuffer.BufferState,
                          inst: GoldenBuffer.GoldenMemInst, mode: nat)
    requires cfg.mem1Bits == 32 && mode < 3 && inst.modeBits == ModeBits(mode)
    requires forall k :: 0 <= k < |b.mem1| ==> b.mem1[k] < Pow2(32)
    requires GoldenBuffer.HandleRead(cfg, b, inst).Success?
    ensures MainBuffer.VectorWordIndex(mode, inst.membOffset) < |b.mem1|
    ensures GoldenBuffer.HandleRead(cfg, b, inst).value.port1
         == MainBuffer.VectorOperand(b.mem1, mode, inst.membOffset)
  {
    if mode == 1 {
      HalfWordAgrees(b.mem1[inst.membOffset / 2], inst.membOffset);
    }
  }

  // ---------------------------------------------------------------------------
  // The loop of a compound instruction
  // ---------------------------------------------------------------------------

  /** The reference instruction carrying the same fields as a hardware instruction. */
  predicate SameFields(ci: Instruction, gi: GoldenAccelerator.GoldenInstruction)
  {
    && gi.mem.opcode == ci.mem.opcode
    && gi.mem.memaOffset == ci.mem.memaOffset && gi.mem.membOffset == ci.mem.membOffset
    && gi.count == ci.count && gi.memaInc == ci.memaInc && gi.membInc == ci.membInc
  }

  /** Both run count + 1 iterations, and while an offset does not pass 1023 iteration k uses
      the same offset in both. */
  lemma OffsetsAgree(ci: Instruction, gi: GoldenAccelerator.GoldenInstruction, k: nat)
    requires ci.WellFormed() && SameFields(ci, gi) && k <= ci.count
    ensures |Sequencer.Trace(ci)| == gi.count + 1
    ensures ci.mem.memaOffset + k < 1024 ==>
      GoldenAccelerator.MemInstAt(gi, k).memaOffset == Sequencer.Trace(ci)[k].mem.memaOffset
    ensures ci.mem.membOffset + k < 1024 ==>
      GoldenAccelerator.MemInstAt(gi, k).membOffset == Sequencer.Trace(ci)[k].mem.membOffset
  {
    assert Pow2(OFFSET_BITS) == 1024;
    if ci.mem.memaOffset + k < 1024 {
      ModUnique(ci.mem.memaOffset + k, 1024, 0, ci.mem.memaOffset + k);
    }
    if ci.mem.membOffset + k < 1024 {
      ModUnique(ci.mem.membOffset + k, 1024, 0, ci.mem.membOffset + k);
    }
  }

  /** Past 1023 they part: the hardware register wraps to the start while the reference
      offset keeps counting. */
  lemma OffsetWrapDiverges(ci: Instruction, gi: GoldenAccelerator.GoldenInstruction, k: nat)
    requires ci.WellFormed() && SameFields(ci, gi) && k <= ci.count
    requires ci.memaInc && ci.mem.memaOffset + k >= 1024
    ensures GoldenAccelerator.MemInstAt(gi, k).memaOffset == ci.mem.memaOffset + k
    ensures Sequencer.Trace(ci)[k].mem.memaOffset == ci.mem.memaOffset + k - 1024
  {
    assert Pow2(OFFSET_BITS) == 1024;
    ModUnique(ci.mem.memaOffset + k, 1024, 1, ci.mem.memaOffset + k - 1024);
  }
}

=== FILE: bits.dfy ===
/**
  Fixed-width words as bounded natural numbers.

  A word of width `w` is a `nat` below `Pow2(w)`. Bit `k` of `x` is `(x / Pow2(k)) % 2`.
  The helpers here play the role of the hardware library's `get_slc`/`set_slc` and of
  the bit-string library's slicing, cutting and joining: a packed word is a list of equal
  width lanes, lane 0 in the least significant bits (`Pack`/`Lanes`), or lane 0 in the
  most significant bits (`PackMsb`/`LanesMsb`), the order the bit-string library uses.
 */
module Bits {

  /** 2 to the power n. */
  function Pow2(n: nat): (r: nat)
    ensures r >= 1
  {
    if n == 0 then 1 else 2 * Pow2(n - 1)
  }

  /** x shifted right by s bits (logical shift). */
  function Shr(x: nat, s: nat): (r: nat)
  {
    DivNat(x, Pow2(s));
    x / Pow2(s)
  }

  /** Bits [pos, pos + w) of x, as an unsigned number. */
  function Slice(x: nat, pos: nat, w: nat): (r: nat)
    ensures r < Pow2(w)
  {
    Shr(x, pos) % Pow2(w)
  }

  /** Lane i of x when x is cut into lanes of width w, lane 0 lowest. */
  function Lane(x: nat, i: nat, w: nat): (r: nat)
    ensures r < Pow2(w)
  {
    Slice(x, i * w, w)
  }

  /** The two's-complement reading of the low w bits of x. */
  function ToSigned(x: nat, w: nat): (r: int)
    requires w > 0
    ensures FitsSigned(r, w)
    ensures FromSigned(r, w) == x % Pow2(w)
  {
    var u := x % Pow2(w);
    if u < Pow2(w - 1) then
      ModUnique(u, Pow2(w), 0, u);
      u
    else
      ModUnique(u - Pow2(w), Pow2(w), -1, u);
      u - Pow2(w)
  }

  /** The w-bit two's-complement encoding of v: v wrapped modulo 2^w. */
  function FromSigned(v: int, w: nat): (r: nat)
    ensures r < Pow2(w)
  {
    v % Pow2(w)
  }

  /** Sign-extends the low `from` bits of x to `to` bits. */
  function SignExtend(x: nat, from: nat, to: nat): (r: nat)
    requires 0 < from
    ensures r < Pow2(to)
  {
    FromSigned(ToSigned(x, from), to)
  }

  /** Packs lanes of width w, lanes[0] lowest; each lane is first truncated to w bits. */
  function Pack(lanes: seq<nat>, w: nat): (r: nat)
    ensures r < Pow2(|lanes| * w)
  {
    if |lanes| == 0 then 0
    else
      var rest := Pack(lanes[1..], w);
      LaneWidths(|lanes|, w);
      PackStep(lanes[0] % Pow2(w), rest, Pow2(w), Pow2((|lanes| - 1) * w));
      lanes[0] % Pow2(w) + Pow2(w) * rest
  }

  /** The n lanes of width w of x, lane 0 lowest. */
  function Lanes(x: nat, n: nat, w: nat): (r: seq<nat>)
    ensures |r| == n
    ensures forall i :: 0 <= i < n ==> r[i] == Lane(x, i, w)
  {
    seq(n, i requires 0 <= i < n => Lane(x, i, w))
  }

  /** The word made of n copies of the w-bit value e. */
  function Replicate(e: nat, n: nat, w: nat): (r: nat)
    ensures r < Pow2(n * w)
    ensures forall k :: 0 <= k < n ==> Lane(r, k, w) == e % Pow2(w)
  {
    var lanes := seq(n, _ => e);
    LanesOfPack(lanes, w);
    Pack(lanes, w)
  }

  /** The list in the opposite order. */
  function Reverse<T>(s: seq<T>): (r: seq<T>)
    ensures |r| == |s|
    ensures forall i :: 0 <= i < |s| ==> r[i] == s[|s| - 1 - i]
  {
    seq(|s|, i requires 0 <= i < |s| => s[|s| - 1 - i])
  }

  /** Joins lanes of width w with lanes[0] in the most significant position. */
  function PackMsb(lanes: seq<nat>, w: nat): (r: nat)
    ensures r < Pow2(|lanes| * w)
  {
    Pack(Reverse(lanes), w)
  }

  /** Cuts x into n lanes of width w, lane 0 being the most significant. */
  function LanesMsb(x: nat, n: nat, w: nat): (r: seq<nat>)
    ensures |r| == n
    ensures forall i :: 0 <= i < n ==> r[i] == Lane(x, n - 1 - i, w)
  {
    seq(n, i requires 0 <= i < n => Lane(x, n - 1 - i, w))
  }

  // ---------------------------------------------------------------------------
  // Arithmetic facts
  // ---------------------------------------------------------------------------

  lemma {:induction false} Pow2Add(a: nat, b: nat)
    ensures Pow2(a + b) == Pow2(a) * Pow2(b)
  {
    if a > 0 {
      Pow2Add(a - 1, b);
      assert Pow2(a + b) == 2 * Pow2(a - 1 + b);
    }
  }

  lemma {:induction false} Pow2Monotone(a: nat, b: nat)
    requires a <= b
    ensures Pow2(a) <= Pow2(b)
  {
    if a < b {
      Pow2Monotone(a, b - 1);
    }
  }

  lemma MulPositive(x: int, y: int)
    requires x > 0 && y > 0
    ensures x * y > 0
  {
  }

  lemma MulStrict(a: int, b: int, p: int)
    requires p > 0 && a < b
    ensures a * p < b * p
  {
    MulPositive(b - a, p);
    assert b * p - a * p == (b - a) * p;
  }

  lemma MulMonotone(a: int, b: int, p: int)
    requires p >= 0 && a <= b
    ensures a * p <= b * p
  {
    if p > 0 && a < b {
      MulStrict(a, b, p);
    }
  }

  lemma ZeroMultiple(m: int, p: int)
    requires p > 0 && -p < m * p < p
    ensures m == 0
  {
    if m >= 1 {
      MulMonotone(1, m, p);
    } else if m <= -1 {
      MulMonotone(m, -1, p);
    }
  }

  /** Division and remainder are determined by any decomposition v = k * p + r, 0 <= r < p. */
  lemma ModUnique(v: int, p: int, k: int, r: int)
    requires p > 0 && 0 <= r < p && v == k * p + r
    ensures v / p == k && v % p == r
  {
    var q, s := v / p, v % p;
    assert v == q * p + s;
    assert (k - q) * p == s - r;
    ZeroMultiple(k - q, p);
  }


  /** n lanes of width w are one lane followed by n - 1 lanes. */
  lemma LaneWidths(n: nat, w: nat)
    requires n > 0
    ensures 0 <= (n - 1) * w
    ensures n * w == w + (n - 1) * w
    ensures Pow2(n * w) == Pow2(w) * Pow2((n - 1) * w)
  {
    LaneCount(n, w);
    Pow2Sum(w, (n - 1) * w, n * w);
  }

  lemma LaneCount(n: nat, w: nat)
    requires n > 0
    ensures 0 <= (n - 1) * w
    ensures n * w == w + (n - 1) * w
  {
  }

  /** Pow2Add for a sum given by name. */
  lemma Pow2Sum(a: nat, b: nat, t: nat)
    requires t == a + b
    ensures Pow2(t) == Pow2(a) * Pow2(b)
  {
    Pow2Add(a, b);
  }

  lemma PackStep(a: nat, rest: nat, m: nat, bound: nat)
    requires a < m && rest < bound
    ensures 0 <= m * rest
    ensures a + m * rest < m * bound
  {
    MulMonotone(rest, bound - 1, m);
    assert m * (bound - 1) == m * bound - m;
  }

  /** Dividing by p * q is dividing by p then by q; the remainders combine likewise. */
  lemma DivModMul(x: nat, p: nat, q: nat)
    requires p > 0 && q > 0
    ensures x / (p * q) == (x / p) / q
    ensures x % (p * q) == x % p + p * ((x / p) % q)
  {
    var a, b := x / p, x % p;
    var c, d := a / q, a % q;
    assert x == a * p + b;
    assert a == c * q + d;
    assert a * p == c * (p * q) + d * p by {
      assert a * p == (c * q + d) * p;
    }
    MulMonotone(d, q - 1, p);
    MulMonotone(0, d, p);
    assert (q - 1) * p == p * q - p;
    ModUnique(x, p * q, c, d * p + b);
    assert d * p == p * d;
  }

  lemma ModOfModMul(v: int, p: int, q: int)
    requires p > 0 && q > 0
    ensures (v % (p * q)) % p == v % p
  {
    var r := v % (p * q);
    var k := v / (p * q);
    assert v == k * (p * q) + r;
    var r1, r0 := r / p, r % p;
    assert r == r1 * p + r0;
    assert v == (k * q + r1) * p + r0 by {
      assert k * (p * q) == (k * q) * p;
      assert (k * q + r1) * p == (k * q) * p + r1 * p;
    }
    ModUnique(v, p, k * q + r1, r0);
  }

  /** (v mod 2^b) mod 2^a is v mod 2^a when a <= b. */
  lemma ModOfMod(v: int, a: nat, b: nat)
    requires a <= b
    ensures (v % Pow2(b)) % Pow2(a) == v % Pow2(a)
  {
    Pow2Add(a, b - a);
    ModOfModMul(v, Pow2(a), Pow2(b - a));
  }

  /** v fits in w-bit two's complement. */
  predicate FitsSigned(v: int, w: nat)
  {
    w > 0 && -(Pow2(w - 1) as int) <= v < Pow2(w - 1)
  }

  lemma WrapUnwrap(v: int, p: int, h: int)
    requires h > 0 && p == 2 * h && -h <= v < h
    ensures v >= 0 ==> v % p == v
    ensures v < 0 ==> v % p == v + p
  {
    if v >= 0 {
      ModUnique(v, p, 0, v);
    } else {
      ModUnique(v, p, -1, v + p);
    }
  }

  /** Encoding then decoding a value in the signed range of w bits gives it back. */
  lemma SignedRoundTrip(v: int, w: nat)
    requires FitsSigned(v, w)
    ensures ToSigned(FromSigned(v, w), w) == v
  {
    var p, h := Pow2(w), Pow2(w - 1);
    assert p == 2 * h;
    WrapUnwrap(v, p, h);
    var u := FromSigned(v, w);
    assert u % p == u by {
      ModUnique(u, p, 0, u);
    }
  }

  /** The low `from` bits of a sign extension are the original low bits. */
  lemma SignExtendLow(x: nat, from: nat, to: nat)
    requires 0 < from <= to
    ensures SignExtend(x, from, to) % Pow2(from) == x % Pow2(from)
  {
    ModOfMod(ToSigned(x, from), from, to);
  }

  /** Sign extension keeps the signed value. */
  lemma SignExtendValue(x: nat, from: nat, to: nat)
    requires 0 < from <= to
    ensures ToSigned(SignExtend(x, from, to), to) == ToSigned(x, from)
  {
    Pow2Monotone(from - 1, to - 1);
    SignedRoundTrip(ToSigned(x, from), to);
  }

  lemma MulBound(a: int, b: int, h: int)
    requires h >= 0 && -h <= a <= h && -h <= b <= h
    ensures -(h * h) <= a * b <= h * h
  {
    var ua := if a < 0 then -a else a;
    var ub := if b < 0 then -b else b;
    MulMonotone(ua, h, ub);
    MulMonotone(ub, h, h);
    assert ua * ub <= h * h;
    assert a * b == ua * ub || a * b == -(ua * ub);
  }

  /** The product of two w-bit signed values fits in 2w signed bits. */
  lemma ProductFits(a: int, b: int, w: nat)
    requires FitsSigned(a, w) && FitsSigned(b, w)
    ensures FitsSigned(a * b, 2 * w)
  {
    var h := Pow2(w - 1);
    MulBound(a, b, h);
    Pow2Add(w - 1, w - 1);
    assert Pow2(2 * w - 1) == 2 * Pow2(2 * w - 2);
    assert h * h == Pow2(2 * w - 2);
  }

  // ---------------------------------------------------------------------------
  // Packing and unpacking lanes
  // ---------------------------------------------------------------------------

  /** Lane 0 of x is x modulo 2^w. */
  lemma LaneZero(x: nat, w: nat)
    ensures Lane(x, 0, w) == x % Pow2(w)
  {
    assert 0 * w == 0;
    assert Pow2(0) == 1;
  }

  /** Lane i of a packed word is the i-th packed value, truncated to the lane width. */
  lemma {:induction false} LaneOfPack(lanes: seq<nat>, w: nat, i: nat)
    requires i < |lanes|
    ensures Lane(Pack(lanes, w), i, w) == lanes[i] % Pow2(w)
  {
    var m := Pow2(w);
    var a := lanes[0] % m;
    var rest := Pack(lanes[1..], w);
    var x := Pack(lanes, w);
    assert x == a + m * rest;
    ModUnique(x, m, rest, a);
    if i == 0 {
      LaneZero(x, w);
    } else {
      LaneOfPack(lanes[1..], w, i - 1);
      LaneShift(x, i - 1, w);
      assert Shr(x, w) == rest;
    }
  }

  /** Every lane of a packed word is the corresponding packed value, truncated. */
  lemma LanesOfPack(lanes: seq<nat>, w: nat)
    ensures forall i :: 0 <= i < |lanes| ==> Lane(Pack(lanes, w), i, w) == lanes[i] % Pow2(w)
  {
    forall i | 0 <= i < |lanes|
      ensures Lane(Pack(lanes, w), i, w) == lanes[i] % Pow2(w)
    {
      LaneOfPack(lanes, w, i);
    }
  }

  /** Slicing at pos + w is slicing the word shifted right by w at pos. */
  lemma SliceShift(x: nat, w: nat, pos: nat, width: nat)
    ensures Slice(x, w + pos, width) == Slice(Shr(x, w), pos, width)
  {
    Pow2Add(w, pos);
    DivModMul(x, Pow2(w), Pow2(pos));
  }

  /** Lane i + 1 of x is lane i of x shifted right by one lane. */
  lemma LaneShift(x: nat, i: nat, w: nat)
    ensures Lane(x, i + 1, w) == Lane(Shr(x, w), i, w)
  {
    var e := i * w;
    var pos := (i + 1) * w;
    assert pos == w + e;
    SliceShift(x, w, e, w);
    assert Lane(x, i + 1, w) == Slice(x, pos, w);
  }

  lemma ModMulStep(x: nat, m: nat, q: nat, mq: nat, packedRest: nat)
    requires m > 0 && q > 0 && mq == m * q && packedRest == (x / m) % q
    ensures (x % m) % m + m * packedRest == x % mq
  {
    DivModMul(x, m, q);
    ModUnique(x % m, m, 0, x % m);
  }

  /** Dropping the lowest of n lanes leaves the n - 1 lanes of the word shifted down one lane. */
  lemma LanesTail(x: nat, n: nat, w: nat)
    requires n > 0
    ensures Lanes(x, n, w)[1..] == Lanes(Shr(x, w), n - 1, w)
  {
    var ls := Lanes(x, n, w);
    forall i | 0 <= i < n - 1
      ensures ls[1..][i] == Lane(Shr(x, w), i, w)
    {
      LaneShift(x, i, w);
    }
  }

  /** Cutting x into n lanes and packing them again gives the low n * w bits of x. */
  lemma {:induction false} PackLanes(x: nat, n: nat, w: nat)
    ensures Pack(Lanes(x, n, w), w) == x % Pow2(n * w)
    decreases n
  {
    if n == 0 {
      assert Pow2(0 * w) == 1;
    } else {
      LaneWidths(n, w);
      var ls := Lanes(x, n, w);
      var rest := Pack(ls[1..], w);
      LanesTail(x, n, w);
      PackLanes(Shr(x, w), n - 1, w);
      LaneZero(x, w);
      ModMulStep(x, Pow2(w), Pow2((n - 1) * w), Pow2(n * w), rest);
    }
  }

  /** A word below 2^(n * w) is the packing of its own n lanes. */
  lemma PackLanesExact(x: nat, n: nat, w: nat)
    requires x < Pow2(n * w)
    ensures Pack(Lanes(x, n, w), w) == x
  {
    MulNat(n, w);
    PackLanes(x, n, w);
    ModSmall(x, Pow2(n * w));
  }

  /** Dividing a natural by a positive divisor gives a natural. */
  lemma DivNat(x: nat, p: int)
    requires p >= 1
    ensures x / p >= 0
  {
    var q, r := x / p, x % p;
    assert x == q * p + r;
    if q < 0 {
      MulMonotone(q, -1, p);
    }
  }

  /** A product of naturals is a natural. */
  lemma MulNat(a: nat, b: nat)
    ensures a * b >= 0
  {
  }

  /** A value below p is its own remainder. */
  lemma ModSmall(x: nat, p: nat)
    requires x < p
    ensures x % p == x
  {
    ModUnique(x, p, 0, x);
  }

  /** Two words below 2^(n * w) with the same n lanes are equal. */
  lemma LanesDetermine(x: nat, y: nat, n: nat, w: nat)
    requires x < Pow2(n * w) && y < Pow2(n * w)
    requires forall k :: 0 <= k < n ==> Lane(x, k, w) == Lane(y, k, w)
    ensures x == y
  {
    PackLanesExact(x, n, w);
    PackLanesExact(y, n, w);
    assert Lanes(x, n, w) == Lanes(y, n, w);
  }

  /** Two w-bit values with the same signed reading are equal. */
  lemma SignedDetermines(x: nat, y: nat, w: nat)
    requires w > 0 && x < Pow2(w) && y < Pow2(w) && ToSigned(x, w) == ToSigned(y, w)
    ensures x == y
  {
    ModUnique(x, Pow2(w), 0, x);
    ModUnique(y, Pow2(w), 0, y);
  }

  /** The lanes of a packed word, read back in order, are the packed values truncated. */
  lemma LanesPackRoundTrip(lanes: seq<nat>, w: nat)
    requires forall i :: 0 <= i < |lanes| ==> lanes[i] < Pow2(w)
    ensures Lanes(Pack(lanes, w), |lanes|, w) == lanes
  {
    LanesOfPack(lanes, w);
    forall i | 0 <= i < |lanes|
      ensures Lanes(Pack(lanes, w), |lanes|, w)[i] == lanes[i]
    {
      ModUnique(lanes[i], Pow2(w), 0, lanes[i]);
    }
  }

  /** MSB-first lane i of a word is LSB-first lane n - 1 - i; packing is reversed likewise. */
  lemma LaneOfPackMsb(lanes: seq<nat>, w: nat, i: nat)
    requires i < |lanes|
    ensures Lane(PackMsb(lanes, w), |lanes| - 1 - i, w) == lanes[i] % Pow2(w)
  {
    LaneOfPack(Reverse(lanes), w, |lanes| - 1 - i);
  }

  /** A single lane packs to itself, truncated. */
  lemma PackSingle(v: nat, w: nat)
    ensures Pack([v], w) == v % Pow2(w)
  {
    assert [v][1..] == [];
  }

  // ---------------------------------------------------------------------------
  // Arithmetic shift and wrap-around
  // ---------------------------------------------------------------------------

  /** Floor division by d >= 1 moves a value towards zero, never across it. */
  lemma FloorDivRange(v: int, d: int)
    requires d >= 1
    ensures v >= 0 ==> 0 <= v / d <= v
    ensures v < 0 ==> v <= v / d < 0
  {
    var q, r := v / d, v % d;
    assert v == q * d + r;
    if v >= 0 {
      if q < 0 {
        MulMonotone(q, -1, d);
      } else {
        MulMonotone(1, d, q);
      }
    } else {
      if q >= 0 {
        MulMonotone(0, q, d);
      } else {
        MulMonotone(1, d, -(q + 1));
        assert (q + 1) * d == -(d * (-(q + 1)));
      }
    }
  }

  /** Floor division by a power of two keeps a signed value in its range. */
  lemma ShiftStaysInRange(v: int, w: nat, shift: nat)
    requires FitsSigned(v, w)
    ensures FitsSigned(v / Pow2(shift), w)
  {
    FloorDivRange(v, Pow2(shift));
  }

  /** Congruent summands give congruent sums. */
  lemma ModAddCongruent(a: int, t: int, b: int, p: int)
    requires p > 0 && t % p == a % p
    ensures (t + b) % p == (a + b) % p
  {
    var k1, k2 := t / p, a / p;
    assert t == k1 * p + t % p;
    assert a == k2 * p + a % p;
    var r, k := (a + b) % p, (a + b) / p;
    assert a + b == k * p + r;
    assert t + b == (k - k2 + k1) * p + r by {
      assert (k - k2 + k1) * p == k * p - k2 * p + k1 * p;
    }
    ModUnique(t + b, p, k - k2 + k1, r);
  }

  /** Adding to a wrapped value wraps like adding to the value itself. */
  lemma WrapAdd(a: int, b: int, w: nat)
    requires w > 0
    ensures FromSigned(ToSigned(FromSigned(a, w), w) + b, w) == FromSigned(a + b, w)
  {
    var t := ToSigned(FromSigned(a, w), w);
    ModOfMod(a, w, w);
    ModAddCongruent(a, t, b, Pow2(w));
  }

  /** Reducing modulo 2^b does not change the bits below b. */
  lemma SliceOfMod(x: nat, b: nat, pos: nat, w: nat)
    requires pos + w <= b
    ensures Slice(x % Pow2(b), pos, w) == Slice(x, pos, w)
  {
    var p, q := Pow2(pos), Pow2(b - pos);
    Pow2Add(pos, b - pos);
    assert Pow2(b) == p * q;
    DivModMul(x, p, q);
    var t := (x / p) % q;
    ModUnique(x % Pow2(b), p, t, x % p);
    assert Shr(x % Pow2(b), pos) == t;
    ModOfMod(x / p, w, b - pos);
  }

  /** An exact quotient multiplies back. */
  lemma DivExact(a: nat, d: nat)
    requires d > 0 && a % d == 0
    ensures (a / d) * d == a
  {
  }
}

=== FILE: golden_accelerator.dfy ===
/**
  The reference (golden) accelerator: a configuration check, an array of reference
  processing elements and a reference main buffer, and the execution of one compound
  instruction on them.

  An iteration of a compound instruction (i) on WRITE latches the processing elements'
  outputs, joined element 0 first, into the buffer's mem2 input port, (ii) runs the
  memory instruction on the buffer, (iii) on READ hands element j the j-th INPUT-bit piece
  of the mem0 port (most significant piece first) as operand a and the mem1 port as
  operand b, and (iv) runs the processing-element instruction on every element in order.
 */
module GoldenAccelerator {
  import opened Bits
  import opened Wrappers
  import opened Isa
  import opened GoldenPe
  import opened GoldenBuffer

  /** The configuration: counter width (unused by execution), element count, and the
      element and buffer configurations. */
  datatype AccelConfig = AccelConfig(counterBits: nat, peCount: nat, pe: PeConfig, buffer: BufferConfig)

  /** What construction raises: the configuration check's division by zero or one of its
      three ValueErrors, or the CreationError of a zero-width bit string. */
  datatype ConfigError = ConfigZeroDivision | PeCountMismatch | InputWidthMismatch | OutputCountMismatch
                       | ZeroWidthCreation

  /** A compound instruction of the reference model. */
  datatype GoldenInstruction = GoldenInstruction(
    mem: GoldenMemInst, pe: GoldenPeInst, count: nat, memaInc: bool, membInc: bool)

  /** The accelerator: one state per processing element, and the buffer. */
  datatype Accel = Accel(pes: seq<PeState>, buffer: BufferState)

  /** An error raised while executing: by a processing element or by the buffer. */
  datatype AccelError = PeFailed(peError: PeError) | BufferFailed(bufferError: BufferError)

  // ---------------------------------------------------------------------------
  // Configuration
  // ---------------------------------------------------------------------------

  /** The configuration check, in its order: the element count against the mem0 width per
      input width, the input width against the mem1 width, and the element count against
      the mem2 width per output width. The quotients are compared as products. */
  function Validate(cfg: AccelConfig): (r: Option<ConfigError>)
    ensures r.None? <==>
      && cfg.pe.inputBits > 0 && cfg.pe.outputBits > 0
      && cfg.peCount * cfg.pe.inputBits == cfg.buffer.mem0Bits
      && cfg.pe.inputBits == cfg.buffer.mem1Bits
      && cfg.peCount * cfg.pe.outputBits == cfg.buffer.mem2Bits
    ensures r == Some(ConfigZeroDivision) <==>
      cfg.pe.inputBits == 0
      || (cfg.peCount * cfg.pe.inputBits == cfg.buffer.mem0Bits && cfg.pe.inputBits == cfg.buffer.mem1Bits
          && cfg.pe.outputBits == 0)
  {
    if cfg.pe.inputBits == 0 then Some(ConfigZeroDivision)
    else if cfg.peCount * cfg.pe.inputBits != cfg.buffer.mem0Bits then Some(PeCountMismatch)
    else if cfg.pe.inputBits != cfg.buffer.mem1Bits then Some(InputWidthMismatch)
    else if cfg.pe.outputBits == 0 then Some(ConfigZeroDivision)
    else if cfg.peCount * cfg.pe.outputBits != cfg.buffer.mem2Bits then Some(OutputCountMismatch)
    else None
  }

  /** The constructor: the configuration is checked first; then the counter register,
      peCount fresh elements and a fresh buffer are created. Creating any of them with a
      width of 0 raises CreationError: a counter width of 0, an accumulator width of 0
      when there is an element, or an element count of 0, which leaves the mem0 and mem2
      ports 0 bits wide. */
  function New(cfg: AccelConfig): (r: Result<Accel, ConfigError>)
    ensures r.Failure? <==>
      Validate(cfg).Some? || cfg.counterBits == 0 || cfg.peCount == 0 || cfg.pe.accBits == 0
    ensures r.Failure? ==> (r.error == ZeroWidthCreation <==> Validate(cfg).None?)
    ensures r.Failure? && Validate(cfg).Some? ==> r.error == Validate(cfg).value
    ensures r.Success? ==> Consistent(cfg, r.value)
    ensures r.Success? ==> forall j :: 0 <= j < cfg.peCount ==> Success(r.value.pes[j]) == GoldenPe.Init(cfg.pe)
    ensures r.Success? ==> Success(r.value.buffer) == GoldenBuffer.Init(cfg.buffer)
  {
    match Validate(cfg)
    case Some(e) => Failure(e)
    case None =>
      if cfg.counterBits == 0 then Failure(ZeroWidthCreation)
      else if cfg.peCount > 0 && GoldenPe.Init(cfg.pe).Failure? then Failure(ZeroWidthCreation)
      else
        match GoldenBuffer.Init(cfg.buffer)
        case Failure(_) => Failure(ZeroWidthCreation)
        case Success(buffer) =>
          assert cfg.peCount > 0;
          var pe := GoldenPe.Init(cfg.pe).value;
          Success(Accel(seq(cfg.peCount, _ => pe), buffer))
  }

  // ---------------------------------------------------------------------------
  // One iteration
  // ---------------------------------------------------------------------------

  /** The state an execution needs: a checked configuration, the right number of elements,
      every register of its width, and mem0 and mem1 words of their memory's width. */
  predicate Consistent(cfg: AccelConfig, st: Accel)
  {
    && Validate(cfg).None? && cfg.pe.Valid()
    && |st.pes| == cfg.peCount
    && (forall j :: 0 <= j < |st.pes| ==> WellSized(cfg.pe, st.pes[j]))
    && (forall k :: 0 <= k < |st.buffer.mem0| ==> st.buffer.mem0[k] < Pow2(cfg.buffer.mem0Bits))
    && (forall k :: 0 <= k < |st.buffer.mem1| ==> st.buffer.mem1[k] < Pow2(cfg.buffer.mem1Bits))
  }

  /** The instruction can run: the codes are valid, the element mode divides the widths,
      and a READ in a 16-bit or 8-bit mode has a 32-bit mem1, so the port is as wide as an
      operand. */
  predicate Runnable(cfg: AccelConfig, pc: PeCodes, mc: MemCodes, ci: GoldenInstruction)
  {
    && pc.Valid() && mc.Valid()
    && cfg.pe.Divides(ci.pe.modeBits)
    && (ci.mem.opcode == mc.read && ci.mem.modeBits != 32 ==> cfg.buffer.mem1Bits == 32)
  }

  /** 1 when the increment flag is set, else 0. */
  function Inc(flag: bool): nat
  {
    if flag then 1 else 0
  }

  /** The memory instruction of iteration k: the base offsets advanced by k when the
      matching flag is set. */
  function MemInstAt(ci: GoldenInstruction, k: nat): (r: GoldenMemInst)
    ensures r.opcode == ci.mem.opcode && r.modeBits == ci.mem.modeBits
    ensures r.memaOffset == if ci.memaInc then ci.mem.memaOffset + k else ci.mem.memaOffset
    ensures r.membOffset == if ci.membInc then ci.mem.membOffset + k else ci.mem.membOffset
  {
    ci.mem.(memaOffset := ci.mem.memaOffset + k * Inc(ci.memaInc),
            membOffset := ci.mem.membOffset + k * Inc(ci.membInc))
  }

  /** The outputs of the elements joined, element 0 in the most significant position. */
  function JoinOutputs(cfg: AccelConfig, pes: seq<PeState>): (r: nat)
    ensures r < Pow2(|pes| * cfg.pe.outputBits)
    ensures forall j :: 0 <= j < |pes| ==>
      Lane(r, |pes| - 1 - j, cfg.pe.outputBits) == pes[j].output % Pow2(cfg.pe.outputBits)
  {
    var outputs := seq(|pes|, j requires 0 <= j < |pes| => pes[j].output);
    forall j | 0 <= j < |pes|
      ensures Lane(PackMsb(outputs, cfg.pe.outputBits), |pes| - 1 - j, cfg.pe.outputBits)
        == pes[j].output % Pow2(cfg.pe.outputBits)
    {
      LaneOfPackMsb(outputs, cfg.pe.outputBits, j);
    }
    PackMsb(outputs, cfg.pe.outputBits)
  }

  /** Element j's operand-a piece of a READ: the j-th INPUT-bit piece of the mem0 port,
      most significant piece first. */
  function ABusPiece(cfg: AccelConfig, port0: nat, j: nat): (r: nat)
    requires j < cfg.peCount
    ensures r < Pow2(cfg.pe.inputBits)
  {
    LanesMsb(port0, cfg.peCount, cfg.pe.inputBits)[j]
  }

  /** Every element latches its operand-a piece and the shared operand b. */
  function Latch(cfg: AccelConfig, pes: seq<PeState>, port0: nat, port1: nat): (r: seq<PeState>)
    requires |pes| == cfg.peCount
    ensures |r| == |pes|
    ensures forall j :: 0 <= j < |pes| ==>
      r[j] == pes[j].(inputA := ABusPiece(cfg, port0, j), inputB := port1)
  {
    seq(|pes|, j requires 0 <= j < |pes| => InputB(InputA(pes[j], ABusPiece(cfg, port0, j)), port1))
  }

  /** Elements j, j + 1, ... execute `inst` in turn; the first error stops the run. */
  function StepFrom(cfg: AccelConfig, pc: PeCodes, pes: seq<PeState>, inst: GoldenPeInst, j: nat)
    : (r: Result<seq<PeState>, PeError>)
    requires cfg.pe.Valid() && pc.Valid() && cfg.pe.Divides(inst.modeBits) && j <= |pes|
    requires forall k :: 0 <= k < |pes| ==> WellSized(cfg.pe, pes[k])
    ensures r.Success? <==> forall k :: j <= k < |pes| ==> GoldenPe.Execute(cfg.pe, pc, pes[k], inst).Success?
    ensures r.Success? ==> |r.value| == |pes|
    ensures r.Success? ==> forall k :: 0 <= k < j ==> r.value[k] == pes[k]
    ensures r.Success? ==> forall k :: j <= k < |pes| ==> r.value[k] == GoldenPe.Execute(cfg.pe, pc, pes[k], inst).value
    decreases |pes| - j
  {
    if j == |pes| then Success(pes)
    else
      var e := GoldenPe.Execute(cfg.pe, pc, pes[j], inst);
      if e.Failure? then Failure(e.error)
      else
        var next := pes[j := e.value];
        assert forall k :: 0 <= k < |next| ==> WellSized(cfg.pe, next[k]);
        var rest := StepFrom(cfg, pc, next, inst, j + 1);
        assert forall k :: j < k < |pes| ==> next[k] == pes[k];
        rest
  }

  /** One iteration of a compound instruction with memory instruction `mem`. */
  function Iteration(cfg: AccelConfig, pc: PeCodes, mc: MemCodes, st: Accel, mem: GoldenMemInst, pe: GoldenPeInst)
    : (r: Result<Accel, AccelError>)
    requires Consistent(cfg, st) && pc.Valid() && mc.Valid() && cfg.pe.Divides(pe.modeBits)
    requires mem.opcode == mc.read && mem.modeBits != 32 ==> cfg.buffer.mem1Bits == 32
    ensures r.Success? ==> Consistent(cfg, r.value)
    ensures r.Success? ==> r.value.buffer.mem0 == st.buffer.mem0
    ensures r.Success? ==> r.value.buffer.mem1 == st.buffer.mem1 && r.value.buffer.mem2 == st.buffer.mem2
  {
    var buffer := if mem.opcode == mc.write then WriteMem2Output(st.buffer, JoinOutputs(cfg, st.pes)) else st.buffer;
    var b := GoldenBuffer.Execute(cfg.buffer, mc, buffer, mem);
    if b.Failure? then Failure(BufferFailed(b.error))
    else
      var pes := if mem.opcode == mc.read then
        ReadPortFits(cfg, mc, buffer, mem);
        Latch(cfg, st.pes, b.value.port0, b.value.port1)
      else st.pes;
      var stepped := StepFrom(cfg, pc, pes, pe, 0);
      if stepped.Failure? then Failure(PeFailed(stepped.error))
      else Success(Accel(stepped.value, b.value))
  }

  /** The mem1 port a READ loads is an operand-wide word. */
  lemma ReadPortFits(cfg: AccelConfig, mc: MemCodes, buffer: BufferState, mem: GoldenMemInst)
    requires Validate(cfg).None? && mc.Valid() && mem.opcode == mc.read
    requires forall k :: 0 <= k < |buffer.mem1| ==> buffer.mem1[k] < Pow2(cfg.buffer.mem1Bits)
    requires mem.modeBits != 32 ==> cfg.buffer.mem1Bits == 32
    requires GoldenBuffer.Execute(cfg.buffer, mc, buffer, mem).Success?
    ensures GoldenBuffer.Execute(cfg.buffer, mc, buffer, mem).value.port1 < Pow2(cfg.pe.inputBits)
  {
    if mem.modeBits == 16 {
      assert HalfWidth(32) == 16;
      assert 2 * 16 == 32;
    }
  }

  // ---------------------------------------------------------------------------
  // A compound instruction
  // ---------------------------------------------------------------------------

  /** Reference definition: iterations k, k + 1, ..., n - 1 in turn; an error stops the run. */
  function Iterations(cfg: AccelConfig, pc: PeCodes, mc: MemCodes, st: Accel, ci: GoldenInstruction, k: nat, n: nat)
    : (r: Result<Accel, AccelError>)
    requires Consistent(cfg, st) && Runnable(cfg, pc, mc, ci) && k <= n
    ensures r.Success? ==> Consistent(cfg, r.value)
    decreases n - k
  {
    if k == n then Success(st)
    else
      var next := Iteration(cfg, pc, mc, st, MemInstAt(ci, k), ci.pe);
      if next.Failure? then next
      else Iterations(cfg, pc, mc, next.value, ci, k + 1, n)
  }

  /** One step of the reference definition: iteration k, then the rest unless it failed. */
  lemma IterationsStep(cfg: AccelConfig, pc: PeCodes, mc: MemCodes, st: Accel, ci: GoldenInstruction, k: nat, n: nat)
    requires Consistent(cfg, st) && Runnable(cfg, pc, mc, ci) && k < n
    ensures var next := Iteration(cfg, pc, mc, st, MemInstAt(ci, k), ci.pe);
      && (next.Failure? ==> Iterations(cfg, pc, mc, st, ci, k, n) == next)
      && (next.Success? ==> Iterations(cfg, pc, mc, st, ci, k, n) == Iterations(cfg, pc, mc, next.value, ci, k + 1, n))
  {
  }

  /** Reference definition: a compound instruction runs count + 1 iterations. */
  function Run(cfg: AccelConfig, pc: PeCodes, mc: MemCodes, st: Accel, ci: GoldenInstruction)
    : (r: Result<Accel, AccelError>)
    requires Consistent(cfg, st) && Runnable(cfg, pc, mc, ci)
  {
    Iterations(cfg, pc, mc, st, ci, 0, ci.count + 1)
  }

  /** The execution loop of a compound instruction: iteration i computes its offsets from
      the loop counter, then runs as `RunIteration` does. */
  method ExecuteInstruction(cfg: AccelConfig, pc: PeCodes, mc: MemCodes, st: Accel, ci: GoldenInstruction)
    returns (r: Result<Accel, AccelError>)
    requires Consistent(cfg, st) && Runnable(cfg, pc, mc, ci)
    ensures r == Run(cfg, pc, mc, st, ci)
  {
    var n := ci.count + 1;
    var cur := st;
    var i := 0;
    while i < n
      invariant i <= n
      invariant Consistent(cfg, cur)
      invariant Run(cfg, pc, mc, st, ci) == Iterations(cfg, pc, mc, cur, ci, i, n)
      decreases n - i
    {
      var next := IterationAt(cfg, pc, mc, cur, ci, i, n);
      if next.Failure? {
        return next;
      }
      cur := next.value;
      i := i + 1;
    }
    return Success(cur);
  }

  /** Iteration i of the loop: the offsets are the base offsets plus i times the increment
      flag's value. */
  method IterationAt(cfg: AccelConfig, pc: PeCodes, mc: MemCodes, cur: Accel, ci: GoldenInstruction, i: nat, n: nat)
    returns (r: Result<Accel, AccelError>)
    requires Consistent(cfg, cur) && Runnable(cfg, pc, mc, ci) && i < n
    ensures r.Failure? ==> r == Iterations(cfg, pc, mc, cur, ci, i, n)
    ensures r.Success? ==> Consistent(cfg, r.value)
    ensures r.Success? ==> Iterations(cfg, pc, mc, cur, ci, i, n) == Iterations(cfg, pc, mc, r.value, ci, i + 1, n)
  {
    var memaInc := Inc(ci.memaInc);
    var membInc := Inc(ci.membInc);
    var memInst := ci.mem.(memaOffset := ci.mem.memaOffset + i * memaInc, membOffset := ci.mem.membOffset + i * membInc);
    assert memInst == MemInstAt(ci, i);
    r := RunIteration(cfg, pc, mc, cur, memInst, ci.pe);
    IterationsStep(cfg, pc, mc, cur, ci, i, n);
  }

  /** One iteration: on WRITE the joined outputs go to the mem2 port; the buffer runs the
      memory instruction; on READ every element latches its operands; every element runs
      the processing-element instruction. The latch loop's counter shadows the outer loop
      counter, as the same name does in the original, which leaves the offsets alone. */
  method RunIteration(cfg: AccelConfig, pc: PeCodes, mc: MemCodes, cur: Accel, memInst: GoldenMemInst, inst: GoldenPeInst)
    returns (r: Result<Accel, AccelError>)
    requires Consistent(cfg, cur) && pc.Valid() && mc.Valid() && cfg.pe.Divides(inst.modeBits)
    requires memInst.opcode == mc.read && memInst.modeBits != 32 ==> cfg.buffer.mem1Bits == 32
    ensures r == Iteration(cfg, pc, mc, cur, memInst, inst)
  {
    var buffer := cur.buffer;
    if memInst.opcode == mc.write {
      buffer := WriteMem2Output(buffer, JoinOutputs(cfg, cur.pes));
    }
    var b := GoldenBuffer.Execute(cfg.buffer, mc, buffer, memInst);
    if b.Failure? {
      return Failure(BufferFailed(b.error));
    }
    var pes := cur.pes;
    if memInst.opcode == mc.read {
      ReadPortFits(cfg, mc, buffer, memInst);
      pes := LatchAll(cfg, pes, b.value.port0, b.value.port1);
    }
    var stepped := StepAll(cfg, pc, pes, inst);
    if stepped.Failure? {
      return Failure(PeFailed(stepped.error));
    }
    return Success(Accel(stepped.value, b.value));
  }

  /** The latch loop: element i gets the i-th piece of the mem0 port and the mem1 port. */
  method LatchAll(cfg: AccelConfig, pes: seq<PeState>, port0: nat, port1: nat) returns (r: seq<PeState>)
    requires |pes| == cfg.peCount
    ensures r == Latch(cfg, pes, port0, port1)
  {
    var aBus := LanesMsb(port0, cfg.peCount, cfg.pe.inputBits);
    r := pes;
    var i := 0;
    while i < |r|
      invariant i <= |r| == |pes|
      invariant forall j :: 0 <= j < i ==> r[j] == pes[j].(inputA := ABusPiece(cfg, port0, j), inputB := port1)
      invariant forall j :: i <= j < |r| ==> r[j] == pes[j]
    {
      r := r[i := InputB(InputA(r[i], aBus[i]), port1)];
      i := i + 1;
    }
  }

  /** The execution loop over the elements; the first error ends it. */
  method StepAll(cfg: AccelConfig, pc: PeCodes, pes: seq<PeState>, inst: GoldenPeInst)
    returns (r: Result<seq<PeState>, PeError>)
    requires cfg.pe.Valid() && pc.Valid() && cfg.pe.Divides(inst.modeBits)
    requires forall k :: 0 <= k < |pes| ==> WellSized(cfg.pe, pes[k])
    ensures r == StepFrom(cfg, pc, pes, inst, 0)
  {
    var cur := pes;
    var j := 0;
    while j < |cur|
      invariant j <= |cur| == |pes|
      invariant forall k :: 0 <= k < |cur| ==> WellSized(cfg.pe, cur[k])
      invariant StepFrom(cfg, pc, cur, inst, j) == StepFrom(cfg, pc, pes, inst, 0)
    {
      var e := GoldenPe.Execute(cfg.pe, pc, cur[j], inst);
      if e.Failure? {
        return Failure(e.error);
      }
      cur := cur[j := e.value];
      j := j + 1;
    }
    return Success(cur);
  }

  // ---------------------------------------------------------------------------
  // Properties
  // ---------------------------------------------------------------------------

  /** A READ iteration that succeeds hands element j the j-th piece of the addressed mem0
      word, most significant piece first, and every element the same mem1 operand; element
      j then ends as the element instruction leaves it with those operands latched. */
  lemma ReadFeedsElements(cfg: AccelConfig, pc: PeCodes, mc: MemCodes, st: Accel, mem: GoldenMemInst, pe: GoldenPeInst)
    requires Consistent(cfg, st) && pc.Valid() && mc.Valid() && cfg.pe.Divides(pe.modeBits)
    requires mem.opcode == mc.read && (mem.modeBits != 32 ==> cfg.buffer.mem1Bits == 32)
    requires Iteration(cfg, pc, mc, st, mem, pe).Success?
    ensures var r := Iteration(cfg, pc, mc, st, mem, pe).value;
      && mem.memaOffset < |st.buffer.mem0|
      && r.buffer.port0 == st.buffer.mem0[mem.memaOffset]
      && (forall j :: 0 <= j < cfg.peCount ==>
            r.pes[j].inputA == Lane(st.buffer.mem0[mem.memaOffset], cfg.peCount - 1 - j, cfg.pe.inputBits)
            && r.pes[j].inputB == r.buffer.port1)
      && (mem.modeBits == 32 ==> r.buffer.port1 == st.buffer.mem1[mem.membOffset])
      && r.buffer.port1 < Pow2(cfg.pe.inputBits)
      && (forall j :: 0 <= j < cfg.peCount ==>
            Success(r.pes[j]) == GoldenPe.Execute(cfg.pe, pc, Latch(cfg, st.pes, r.buffer.port0, r.buffer.port1)[j], pe))
  {
    var b := GoldenBuffer.Execute(cfg.buffer, mc, st.buffer, mem).value;
    var latched := Latch(cfg, st.pes, b.port0, b.port1);
    var r := Iteration(cfg, pc, mc, st, mem, pe).value;
    assert r.pes == StepFrom(cfg, pc, latched, pe, 0).value;
    ReadPortFits(cfg, mc, st.buffer, mem);
    forall j | 0 <= j < cfg.peCount
      ensures r.pes[j].inputA == ABusPiece(cfg, b.port0, j) && r.pes[j].inputB == b.port1
      ensures Success(r.pes[j]) == GoldenPe.Execute(cfg.pe, pc, latched[j], pe)
    {
      assert r.pes[j] == GoldenPe.Execute(cfg.pe, pc, latched[j], pe).value;
    }
  }

  /** A WRITE iteration puts the elements' outputs from before the iteration on the mem2
      port, element j in the j-th piece from the top, and changes no memory: the buffer's
      WRITE handler is empty, so nothing reaches mem2. Element j then ends as the element
      instruction leaves it, with its operands unchanged. */
  lemma WriteLatchesOutputs(cfg: AccelConfig, pc: PeCodes, mc: MemCodes, st: Accel, mem: GoldenMemInst, pe: GoldenPeInst)
    requires Consistent(cfg, st) && pc.Valid() && mc.Valid() && cfg.pe.Divides(pe.modeBits)
    requires mem.opcode == mc.write
    requires Iteration(cfg, pc, mc, st, mem, pe).Success?
    ensures var r := Iteration(cfg, pc, mc, st, mem, pe).value;
      && r.buffer.port2 == JoinOutputs(cfg, st.pes)
      && (forall j :: 0 <= j < cfg.peCount ==>
            Lane(r.buffer.port2, cfg.peCount - 1 - j, cfg.pe.outputBits) == st.pes[j].output)
      && r.buffer.mem2 == st.buffer.mem2
      && (forall j :: 0 <= j < cfg.peCount ==> Success(r.pes[j]) == GoldenPe.Execute(cfg.pe, pc, st.pes[j], pe))
  {
    var r := Iteration(cfg, pc, mc, st, mem, pe).value;
    forall j | 0 <= j < cfg.peCount
      ensures Lane(r.buffer.port2, cfg.peCount - 1 - j, cfg.pe.outputBits) == st.pes[j].output
    {
      assert st.pes[j].output < Pow2(cfg.pe.outputBits);
      ModUnique(st.pes[j].output, Pow2(cfg.pe.outputBits), 0, st.pes[j].output);
    }
  }

  /** An iteration fails on an element exactly when some element fails on the element
      instruction (each element runs it once, in order); otherwise element j ends as the
      element instruction leaves its state after the latching. */
  lemma ElementsRunSameInstruction(cfg: AccelConfig, pc: PeCodes, mc: MemCodes, st: Accel, mem: GoldenMemInst, pe: GoldenPeInst)
    requires Consistent(cfg, st) && pc.Valid() && mc.Valid() && cfg.pe.Divides(pe.modeBits)
    requires mem.opcode != mc.read && mem.opcode != mc.write
    ensures var r := Iteration(cfg, pc, mc, st, mem, pe);
      && (r.Success? <==> forall j :: 0 <= j < cfg.peCount ==> GoldenPe.Execute(cfg.pe, pc, st.pes[j], pe).Success?)
      && (r.Success? ==> r.value.buffer == st.buffer)
      && (r.Success? ==> forall j :: 0 <= j < cfg.peCount ==>
            r.value.pes[j] == GoldenPe.Execute(cfg.pe, pc, st.pes[j], pe).value)
  {
    var s := StepFrom(cfg, pc, st.pes, pe, 0);
    if s.Failure? {
      var r := Iteration(cfg, pc, mc, st, mem, pe);
      assert r == Failure(PeFailed(s.error));
    }
  }

  /** No compound instruction changes mem0, mem1 or mem2: the reference buffer never
      stores into its memories. */
  lemma {:induction false} RunKeepsMemories(cfg: AccelConfig, pc: PeCodes, mc: MemCodes, st: Accel, ci: GoldenInstruction, k: nat, n: nat)
    requires Consistent(cfg, st) && Runnable(cfg, pc, mc, ci) && k <= n
    requires Iterations(cfg, pc, mc, st, ci, k, n).Success?
    ensures var r := Iterations(cfg, pc, mc, st, ci, k, n).value;
      r.buffer.mem0 == st.buffer.mem0 && r.buffer.mem1 == st.buffer.mem1 && r.buffer.mem2 == st.buffer.mem2
    decreases n - k
  {
    if k < n {
      var next := Iteration(cfg, pc, mc, st, MemInstAt(ci, k), ci.pe);
      RunKeepsMemories(cfg, pc, mc, next.value, ci, k + 1, n);
    }
  }
}

=== FILE: golden_buffer.dfy ===
/**
  The reference (golden) main buffer: three memories of configured width and depth
  (mem0 for the matrix, mem1 for the vector, mem2 for outputs) and three ports. A READ
  loads the mem0 and mem1 output ports; the accelerator model reads them afterwards. The
  mem2 input port is written from outside. A memory word is a bit string of the memory's
  width, modelled as a `nat` below 2^width.

  An index past the end of a memory raises IndexError, which is the `IndexError` failure
  here; the exception leaves the model, so no state survives it.
 */
module GoldenBuffer {
  import opened Bits
  import opened Wrappers
  import opened Isa
  import MainBuffer

  /** Width and depth of each memory. */
  datatype BufferConfig = BufferConfig(
    mem0Bits: nat, mem0Depth: nat,
    mem1Bits: nat, mem1Depth: nat,
    mem2Bits: nat, mem2Depth: nat)

  /** A memory instruction: opcode, mode as a bit width, and the two offsets. */
  datatype GoldenMemInst = GoldenMemInst(opcode: nat, modeBits: nat, memaOffset: nat, membOffset: nat)

  /** The memories and the ports. */
  datatype BufferState = BufferState(
    mem0: seq<nat>, mem1: seq<nat>, mem2: seq<nat>,
    port0: nat, port1: nat, port2: nat)

  /** The errors the buffer raises: a list index out of range, a memory list of the wrong
      length, and an integer that does not fit the memory width. */
  datatype BufferError = IndexError | ValueError | CreationError

  /** A new buffer: every word and port holds 0. The three ports are created whatever the
      depths, and a bit string of length 0 cannot be created from an integer, so a zero
      width raises CreationError. */
  function Init(cfg: BufferConfig): (r: Result<BufferState, BufferError>)
    ensures r.Failure? <==> cfg.mem0Bits == 0 || cfg.mem1Bits == 0 || cfg.mem2Bits == 0
    ensures r.Failure? ==> r.error == CreationError
    ensures r.Success? ==>
      |r.value.mem0| == cfg.mem0Depth && |r.value.mem1| == cfg.mem1Depth && |r.value.mem2| == cfg.mem2Depth
    ensures r.Success? ==>
      && (forall i :: 0 <= i < |r.value.mem0| ==> r.value.mem0[i] == 0)
      && (forall i :: 0 <= i < |r.value.mem1| ==> r.value.mem1[i] == 0)
      && (forall i :: 0 <= i < |r.value.mem2| ==> r.value.mem2[i] == 0)
    ensures r.Success? ==> r.value.port0 == 0 && r.value.port1 == 0 && r.value.port2 == 0
  {
    if cfg.mem0Bits == 0 || cfg.mem1Bits == 0 || cfg.mem2Bits == 0 then Failure(CreationError)
    else Success(BufferState(seq(cfg.mem0Depth, _ => 0), seq(cfg.mem1Depth, _ => 0), seq(cfg.mem2Depth, _ => 0), 0, 0, 0))
  }

  // ---------------------------------------------------------------------------
  // READ
  // ---------------------------------------------------------------------------

  /** The width of a 16-bit half taken from a word of width `width`: a narrower word is
      taken whole. */
  function HalfWidth(width: nat): nat
  {
    if width < 16 then width else 16
  }

  /** The 16-bit mode's operand: the word at offset >> 1; an odd offset takes the upper 16
      bits (the first 16 of the bit string), an even one the lower 16; the half is joined
      with itself. */
  function HalfWordOperand(width: nat, word: nat, membOffset: nat): (r: nat)
    ensures var hw := HalfWidth(width);
      var half := if membOffset % 2 == 1 then Slice(word, width - hw, hw) else Slice(word, 0, hw);
      r < Pow2(2 * hw) && Lane(r, 0, hw) == half && Lane(r, 1, hw) == half
  {
    var hw := HalfWidth(width);
    var data := if membOffset % 2 == 1 then Slice(word, width - hw, hw) else Slice(word, 0, hw);
    ModUnique(data, Pow2(hw), 0, data);
    Replicate(data, 2, hw)
  }

  /** The index into mem1 that a READ in a mode of `modeBits` bits uses. */
  function Mem1Index(modeBits: nat, membOffset: nat): nat
  {
    if modeBits == 32 then membOffset
    else if modeBits == 16 then membOffset / 2
    else membOffset / 4
  }

  /** READ: the mem0 port gets the whole word mem0[mema]; the mem1 port gets mem1[memb] in
      32-bit mode, a replicated half in 16-bit mode and, in any other mode, a replicated
      byte chosen as the hardware buffer chooses it. */
  function HandleRead(cfg: BufferConfig, b: BufferState, inst: GoldenMemInst): (r: Result<BufferState, BufferError>)
    ensures r.Failure? <==> inst.memaOffset >= |b.mem0| || Mem1Index(inst.modeBits, inst.membOffset) >= |b.mem1|
    ensures r.Failure? ==> r.error == IndexError
    ensures r.Success? ==> r.value == b.(port0 := r.value.port0, port1 := r.value.port1)
    ensures r.Success? ==> r.value.port0 == b.mem0[inst.memaOffset]
    ensures r.Success? && inst.modeBits == 32 ==> r.value.port1 == b.mem1[inst.membOffset]
  {
    if inst.memaOffset >= |b.mem0| then Failure(IndexError)
    else
      var port0 := b.mem0[inst.memaOffset];
      var idx := Mem1Index(inst.modeBits, inst.membOffset);
      if idx >= |b.mem1| then Failure(IndexError)
      else if inst.modeBits == 32 then
        Success(b.(port0 := port0, port1 := b.mem1[idx]))
      else if inst.modeBits == 16 then
        Success(b.(port0 := port0, port1 := HalfWordOperand(cfg.mem1Bits, b.mem1[idx], inst.membOffset)))
      else
        assert MainBuffer.VectorWordIndex(0, inst.membOffset) == idx;
        Success(b.(port0 := port0, port1 := MainBuffer.VectorOperand(b.mem1, 0, inst.membOffset)))
  }

  /** One memory instruction: READ loads the ports, WRITE does nothing (its handler is
      empty), any other opcode does nothing. No memory is ever changed. */
  function Execute(cfg: BufferConfig, codes: MemCodes, b: BufferState, inst: GoldenMemInst): (r: Result<BufferState, BufferError>)
    requires codes.Valid()
    ensures r.Failure? ==> inst.opcode == codes.read && r.error == IndexError
    ensures r.Success? ==> r.value.mem0 == b.mem0 && r.value.mem1 == b.mem1 && r.value.mem2 == b.mem2
    ensures r.Success? ==> r.value.port2 == b.port2
    ensures inst.opcode != codes.read ==> r == Success(b)
    ensures inst.opcode == codes.read ==> r == HandleRead(cfg, b, inst)
  {
    if inst.opcode == codes.read then HandleRead(cfg, b, inst)
    else if inst.opcode == codes.write then Success(b)
    else Success(b)
  }

  // ---------------------------------------------------------------------------
  // Ports and memory loading
  // ---------------------------------------------------------------------------

  /** Writing the mem2 input port replaces only that port. */
  function WriteMem2Output(b: BufferState, value: nat): (r: BufferState)
    ensures r.port2 == value
    ensures r.mem0 == b.mem0 && r.mem1 == b.mem1 && r.mem2 == b.mem2 && r.port0 == b.port0 && r.port1 == b.port1
  {
    b.(port2 := value)
  }

  /** A memory loaded from integers: the list must have the memory's depth, and every
      integer must fit the memory width as a signed number; each is stored in two's
      complement. */
  function LoadInts(depth: nat, width: nat, mem: seq<int>): (r: Result<seq<nat>, BufferError>)
    ensures r.Failure? && r.error == ValueError <==> |mem| != depth
    ensures r.Failure? && r.error == CreationError <==>
      |mem| == depth && exists i :: 0 <= i < |mem| && !FitsSigned(mem[i], width)
    ensures r.Success? ==> |r.value| == depth && forall i :: 0 <= i < |mem| ==>
      FitsSigned(mem[i], width) && r.value[i] == FromSigned(mem[i], width)
  {
    if |mem| != depth then Failure(ValueError)
    else if exists i :: 0 <= i < |mem| && !FitsSigned(mem[i], width) then Failure(CreationError)
    else
      Success(seq(|mem|, i requires 0 <= i < |mem| => FromSigned(mem[i], width)))
  }

  /** A memory loaded from bit strings: only the length is checked. */
  function LoadBits(depth: nat, mem: seq<nat>): (r: Result<seq<nat>, BufferError>)
    ensures r.Failure? <==> |mem| != depth
    ensures r.Failure? ==> r.error == ValueError
    ensures r.Success? ==> r.value == mem
  {
    if |mem| != depth then Failure(ValueError) else Success(mem)
  }

  /** Loading mem0 from integers replaces only mem0. */
  function SetMem0(cfg: BufferConfig, b: BufferState, mem: seq<int>): (r: Result<BufferState, BufferError>)
    ensures r.Failure? <==> LoadInts(cfg.mem0Depth, cfg.mem0Bits, mem).Failure?
    ensures r.Success? ==> r.value == b.(mem0 := r.value.mem0) && |r.value.mem0| == cfg.mem0Depth
    ensures r.Success? ==> r.value.mem0 == LoadInts(cfg.mem0Depth, cfg.mem0Bits, mem).value
  {
    var words :- LoadInts(cfg.mem0Depth, cfg.mem0Bits, mem);
    Success(b.(mem0 := words))
  }

  /** Loading mem1 from integers replaces only mem1. */
  function SetMem1(cfg: BufferConfig, b: BufferState, mem: seq<int>): (r: Result<BufferState, BufferError>)
    ensures r.Failure? <==> LoadInts(cfg.mem1Depth, cfg.mem1Bits, mem).Failure?
    ensures r.Success? ==> r.value == b.(mem1 := r.value.mem1) && |r.value.mem1| == cfg.mem1Depth
    ensures r.Success? ==> r.value.mem1 == LoadInts(cfg.mem1Depth, cfg.mem1Bits, mem).value
  {
    var words :- LoadInts(cfg.mem1Depth, cfg.mem1Bits, mem);
    Success(b.(mem1 := words))
  }

  /** Loading mem0 from bit strings: ValueError exactly when the length is not the depth. */
  function SetMem0Bits(cfg: BufferConfig, b: BufferState, mem: seq<nat>): (r: Result<BufferState, BufferError>)
    ensures r.Failure? <==> |mem| != cfg.mem0Depth
    ensures r.Success? ==> r.value == b.(mem0 := mem)
  {
    var words :- LoadBits(cfg.mem0Depth, mem);
    Success(b.(mem0 := words))
  }

  /** Loading mem1 from bit strings: ValueError exactly when the length is not the depth. */
  function SetMem1Bits(cfg: BufferConfig, b: BufferState, mem: seq<nat>): (r: Result<BufferState, BufferError>)
    ensures r.Failure? <==> |mem| != cfg.mem1Depth
    ensures r.Success? ==> r.value == b.(mem1 := mem)
  {
    var words :- LoadBits(cfg.mem1Depth, mem);
    Success(b.(mem1 := words))
  }

  /** mem2 read back as signed integers. */
  function ReadMem2(cfg: BufferConfig, b: BufferState): (r: seq<int>)
    requires cfg.mem2Bits > 0
    ensures |r| == |b.mem2|
    ensures forall i :: 0 <= i < |r| ==> FitsSigned(r[i], cfg.mem2Bits)
    ensures forall i :: 0 <= i < |r| ==> FromSigned(r[i], cfg.mem2Bits) == b.mem2[i] % Pow2(cfg.mem2Bits)
  {
    seq(|b.mem2|, i requires 0 <= i < |b.mem2| => ToSigned(b.mem2[i], cfg.mem2Bits))
  }

  // ---------------------------------------------------------------------------
  // Properties
  // ---------------------------------------------------------------------------

  /** Loading integers into mem0 and reading them back as signed numbers gives the integers. */
  lemma SetMem0RoundTrip(cfg: BufferConfig, b: BufferState, mem: seq<int>)
    requires |mem| == cfg.mem0Depth && forall i :: 0 <= i < |mem| ==> FitsSigned(mem[i], cfg.mem0Bits)
    ensures SetMem0(cfg, b, mem).Success?
    ensures forall i :: 0 <= i < |mem| ==> ToSigned(SetMem0(cfg, b, mem).value.mem0[i], cfg.mem0Bits) == mem[i]
  {
    forall i | 0 <= i < |mem|
      ensures ToSigned(SetMem0(cfg, b, mem).value.mem0[i], cfg.mem0Bits) == mem[i]
    {
      SignedRoundTrip(mem[i], cfg.mem0Bits);
    }
  }

  /** Loading integers into mem1 and reading them back as signed numbers gives the integers. */
  lemma SetMem1RoundTrip(cfg: BufferConfig, b: BufferState, mem: seq<int>)
    requires |mem| == cfg.mem1Depth && forall i :: 0 <= i < |mem| ==> FitsSigned(mem[i], cfg.mem1Bits)
    ensures SetMem1(cfg, b, mem).Success?
    ensures forall i :: 0 <= i < |mem| ==> ToSigned(SetMem1(cfg, b, mem).value.mem1[i], cfg.mem1Bits) == mem[i]
  {
    forall i | 0 <= i < |mem|
      ensures ToSigned(SetMem1(cfg, b, mem).value.mem1[i], cfg.mem1Bits) == mem[i]
    {
      SignedRoundTrip(mem[i], cfg.mem1Bits);
    }
  }

  /** READ in 16-bit mode of a 32-bit word: the two halves of the port both hold bits
      [16 * (offset & 1), + 16) of mem1[offset >> 1]. */
  lemma ReadHalfWord32(cfg: BufferConfig, codes: MemCodes, b: BufferState, inst: GoldenMemInst)
    requires codes.Valid() && cfg.mem1Bits == 32 && inst.opcode == codes.read && inst.modeBits == 16
    requires inst.memaOffset < |b.mem0| && inst.membOffset / 2 < |b.mem1|
    ensures Execute(cfg, codes, b, inst).Success?
    ensures var p := Execute(cfg, codes, b, inst).value.port1;
      var half := Slice(b.mem1[inst.membOffset / 2], 16 * (inst.membOffset % 2), 16);
      p < Pow2(32) && Lane(p, 0, 16) == half && Lane(p, 1, 16) == half
  {
    assert HalfWidth(32) == 16;
    assert Pow2(2 * 16) == Pow2(32);
  }
}

=== FILE: golden_pe.dfy ===
/**
  The reference (golden) processing element: the behavioural model the hardware is checked
  against. Its widths are configuration parameters: INPUT bits per operand, ACC bits of
  accumulator and OUTPUT bits of output register.

  Registers are bit strings whose index 0 is the most significant bit. A mode of `m` bits
  gives n = INPUT / m lanes of m bits and accumulator lanes of vw = ACC / n bits. The
  bit-string slice [i * w, i * w + w) of an (n * w)-bit register is, counted from the least
  significant end, lane n - 1 - i; the model writes every slice that way.

  The processing element keeps two operand latches, set from outside, the accumulator and
  the output register. An instruction carries its mode as a bit width; the mapping from
  the instruction's mode field to that width belongs to the instruction module, which is
  not part of this model.
 */
module GoldenPe {
  import opened Bits
  import opened Wrappers
  import opened Isa

  /** The three configured widths. */
  datatype PeConfig = PeConfig(inputBits: nat, accBits: nat, outputBits: nat)
  {
    predicate Valid() {
      inputBits > 0 && accBits > 0 && outputBits > 0
    }

    /** The widths divide evenly for a mode of m bits, so every register keeps its width;
        a mode that makes a handler divide by zero is allowed (that is an error result). */
    predicate Divides(m: nat) {
      m == 0 || m > inputBits || (inputBits % m == 0 && accBits % (inputBits / m) == 0)
    }
  }

  /** A processing-element instruction: opcode, mode as a bit width, and value field. */
  datatype GoldenPeInst = GoldenPeInst(opcode: nat, modeBits: nat, value: nat)

  /** The registers: operand latches a and b, accumulator, output. */
  datatype PeState = PeState(inputA: nat, inputB: nat, acc: nat, output: nat)

  /** The errors a handler can raise: a division by zero computing the lane geometry, and a
      sign-extended value that does not fit the accumulator lane (bit-string creation). */
  datatype PeError = ZeroDivision | CreationError

  /** The lane geometry of a handler: n lanes of m input bits and vw accumulator bits. */
  datatype Geometry = Geometry(n: nat, m: nat, vw: nat)
  {
    predicate Tiles(cfg: PeConfig) {
      n > 0 && m > 0 && vw > 0 && n * m == cfg.inputBits && n * vw == cfg.accBits
    }
  }

  /** Every register holds a value of its configured width. */
  predicate WellSized(cfg: PeConfig, s: PeState)
  {
    && s.inputA < Pow2(cfg.inputBits) && s.inputB < Pow2(cfg.inputBits)
    && s.acc < Pow2(cfg.accBits) && s.output < Pow2(cfg.outputBits)
  }

  /** A new processing element: every register holds 0. A bit string of length 0 cannot
      be created from an integer, so a zero width raises CreationError. */
  function Init(cfg: PeConfig): (r: Result<PeState, PeError>)
    ensures r.Failure? <==> !cfg.Valid()
    ensures r.Failure? ==> r.error == CreationError
    ensures r.Success? ==> WellSized(cfg, r.value)
    ensures r.Success? ==> r.value.inputA == 0 && r.value.inputB == 0 && r.value.acc == 0 && r.value.output == 0
  {
    if cfg.inputBits == 0 || cfg.accBits == 0 || cfg.outputBits == 0 then Failure(CreationError)
    else Success(PeState(0, 0, 0, 0))
  }

  /** Latching operand a replaces only that latch. */
  function InputA(s: PeState, value: nat): (r: PeState)
    ensures r.inputA == value && r.inputB == s.inputB && r.acc == s.acc && r.output == s.output
  {
    s.(inputA := value)
  }

  /** Latching operand b replaces only that latch. */
  function InputB(s: PeState, value: nat): (r: PeState)
    ensures r.inputB == value && r.inputA == s.inputA && r.acc == s.acc && r.output == s.output
  {
    s.(inputB := value)
  }

  /** The geometry the handlers compute: n = INPUT // m, vw = ACC // n, `None` where
      either floor division is by zero. The output width plays no part. */
  function LaneGeometry(cfg: PeConfig, m: nat): (r: Option<Geometry>)
    requires cfg.Valid() && cfg.Divides(m)
    ensures r.None? <==> m == 0 || m > cfg.inputBits
    ensures r.Some? ==> r.value.Tiles(cfg) && r.value.m == m
  {
    if m == 0 then None
    else
      var n := cfg.inputBits / m;
      if n == 0 then None
      else
        DivExact(cfg.inputBits, m);
        DivExact(cfg.accBits, n);
        assert n * (cfg.accBits / n) == cfg.accBits;
        assert cfg.accBits / n > 0;
        Some(Geometry(n, m, cfg.accBits / n))
  }

  /** The lane geometry does not depend on the output width. */
  lemma GeometryIgnoresOutputWidth(cfg: PeConfig, m: nat, outputBits: nat)
    requires cfg.Valid() && cfg.Divides(m) && outputBits > 0
    ensures LaneGeometry(cfg, m) == LaneGeometry(cfg.(outputBits := outputBits), m)
  {
  }

  /** The three standard modes of a 32-bit input and 64-bit accumulator. */
  lemma StandardGeometry(outputBits: nat)
    requires outputBits > 0
    ensures LaneGeometry(PeConfig(32, 64, outputBits), 8) == Some(Geometry(4, 8, 16))
    ensures LaneGeometry(PeConfig(32, 64, outputBits), 16) == Some(Geometry(2, 16, 32))
    ensures LaneGeometry(PeConfig(32, 64, outputBits), 32) == Some(Geometry(1, 32, 64))
  {
  }

  // ---------------------------------------------------------------------------
  // The handlers, for a geometry that tiles the registers
  // ---------------------------------------------------------------------------

  /** One MAC lane: signed accumulator lane plus the product of the signed operand lanes,
      masked to the lane width. */
  function MacValue(accLane: nat, aLane: nat, bLane: nat, m: nat, vw: nat): nat
    requires m > 0 && vw > 0
  {
    FromSigned(ToSigned(accLane, vw) + ToSigned(aLane, m) * ToSigned(bLane, m), vw)
  }

  /** MAC slice [i * vw, i * vw + vw), which is lane n - 1 - i. */
  function MacSlice(s: PeState, g: Geometry, i: nat): nat
    requires g.m > 0 && g.vw > 0 && i < g.n
  {
    var k := g.n - 1 - i;
    MacValue(Lane(s.acc, k, g.vw), Lane(s.inputA, k, g.m), Lane(s.inputB, k, g.m), g.m, g.vw)
  }

  /** The MAC lanes in bit-string order: entry i is slice [i * vw, i * vw + vw). */
  function MacSlices(s: PeState, g: Geometry): (r: seq<nat>)
    requires g.m > 0 && g.vw > 0
    ensures |r| == g.n
  {
    seq(g.n, i requires 0 <= i < g.n => MacSlice(s, g, i))
  }

  /** MAC: every accumulator lane gains the product of the matching operand lanes, with
      wrap-around; the lanes are independent, so the bit-string order does not matter. */
  function MacAcc(cfg: PeConfig, s: PeState, g: Geometry): (r: nat)
    requires g.Tiles(cfg)
    ensures r < Pow2(cfg.accBits)
    ensures forall j :: 0 <= j < g.n ==>
      Lane(r, j, g.vw) == FromSigned(ToSigned(Lane(s.acc, j, g.vw), g.vw)
                                     + ToSigned(Lane(s.inputA, j, g.m), g.m) * ToSigned(Lane(s.inputB, j, g.m), g.m),
                                     g.vw)
  {
    var slices := MacSlices(s, g);
    forall j | 0 <= j < g.n
      ensures Lane(PackMsb(slices, g.vw), j, g.vw) == slices[g.n - 1 - j]
    {
      LaneOfPackMsb(slices, g.vw, g.n - 1 - j);
      ModUnique(slices[g.n - 1 - j], Pow2(g.vw), 0, slices[g.n - 1 - j]);
    }
    PackMsb(slices, g.vw)
  }

  /** One PASS slice: operand-a lane k, counted from the least significant end, sign-extended. */
  function PassValue(s: PeState, g: Geometry, k: nat): int
    requires g.m > 0
  {
    ToSigned(Lane(s.inputA, k, g.m), g.m)
  }

  /** Every operand-a lane, sign-extended, fits an accumulator lane. */
  predicate PassFits(s: PeState, g: Geometry)
    requires g.m > 0
  {
    forall k :: 0 <= k < g.n ==> FitsSigned(PassValue(s, g, k), g.vw)
  }

  /** PASS slice i: lane n - 1 - i of operand a, sign-extended to the lane width. */
  function PassSlice(s: PeState, g: Geometry, i: nat): nat
    requires g.m > 0 && i < g.n
  {
    FromSigned(PassValue(s, g, g.n - 1 - i), g.vw)
  }

  /** The PASS slices in the order they are appended: the loop runs over the lanes from
      the most significant one down, so entry i comes from lane n - 1 - i. */
  function PassSlices(s: PeState, g: Geometry): (r: seq<nat>)
    requires g.m > 0
    ensures |r| == g.n
  {
    seq(g.n, i requires 0 <= i < g.n => PassSlice(s, g, i))
  }

  /** PASS: the accumulator becomes operand a's lanes sign-extended to the accumulator lane
      width; it fails when a lane's value does not fit that width. */
  function PassAcc(cfg: PeConfig, s: PeState, g: Geometry): (r: Result<nat, PeError>)
    requires g.Tiles(cfg)
    ensures r.Success? <==> PassFits(s, g)
    ensures r.Failure? ==> r.error == CreationError
    ensures r.Success? ==> r.value < Pow2(cfg.accBits) && forall j :: 0 <= j < g.n ==>
      ToSigned(Lane(r.value, j, g.vw), g.vw) == ToSigned(Lane(s.inputA, j, g.m), g.m)
  {
    if !PassFits(s, g) then Failure(CreationError)
    else
      var slices := PassSlices(s, g);
      forall j | 0 <= j < g.n
        ensures ToSigned(Lane(PackMsb(slices, g.vw), j, g.vw), g.vw) == ToSigned(Lane(s.inputA, j, g.m), g.m)
      {
        LaneOfPackMsb(slices, g.vw, g.n - 1 - j);
        ModUnique(slices[g.n - 1 - j], Pow2(g.vw), 0, slices[g.n - 1 - j]);
        SignedRoundTrip(PassValue(s, g, j), g.vw);
      }
      Success(PackMsb(slices, g.vw))
  }

  /** One RND lane: the signed lane shifted right arithmetically. */
  function RndValue(s: PeState, g: Geometry, shift: nat, j: nat): nat
    requires g.vw > 0
  {
    FromSigned(ToSigned(Lane(s.acc, j, g.vw), g.vw) / Pow2(shift), g.vw)
  }

  /** The RND lanes; the loop overwrites each lane in place, lane j counted from the least
      significant end. */
  function RndLanes(s: PeState, g: Geometry, shift: nat): (r: seq<nat>)
    requires g.vw > 0
    ensures |r| == g.n
  {
    seq(g.n, j requires 0 <= j < g.n => RndValue(s, g, shift, j))
  }

  /** RND: every whole accumulator lane is shifted right arithmetically by `shift`. */
  function RndAcc(cfg: PeConfig, s: PeState, g: Geometry, shift: nat): (r: nat)
    requires g.Tiles(cfg)
    ensures r < Pow2(cfg.accBits)
    ensures forall j :: 0 <= j < g.n ==>
      ToSigned(Lane(r, j, g.vw), g.vw) == ToSigned(Lane(s.acc, j, g.vw), g.vw) / Pow2(shift)
  {
    var lanes := RndLanes(s, g, shift);
    LanesOfPack(lanes, g.vw);
    forall j | 0 <= j < g.n
      ensures ToSigned(Lane(Pack(lanes, g.vw), j, g.vw), g.vw) == ToSigned(Lane(s.acc, j, g.vw), g.vw) / Pow2(shift)
    {
      var v := ToSigned(Lane(s.acc, j, g.vw), g.vw);
      ShiftStaysInRange(v, g.vw, shift);
      SignedRoundTrip(v / Pow2(shift), g.vw);
      ModUnique(lanes[j], Pow2(g.vw), 0, lanes[j]);
    }
    Pack(lanes, g.vw)
  }

  /** The width of one OUT piece: the last m bits of a lane, or the whole lane when it is
      narrower. */
  function PieceWidth(g: Geometry): nat
  {
    if g.m <= g.vw then g.m else g.vw
  }

  /** OUT piece i: the low bits of slice [i * vw, i * vw + vw), which is lane n - 1 - i. */
  function OutPiece(s: PeState, g: Geometry, i: nat): nat
    requires i < g.n
  {
    Slice(Lane(s.acc, g.n - 1 - i, g.vw), 0, PieceWidth(g))
  }

  /** The OUT pieces in bit-string order: piece i is the low bits of slice [i * vw, i * vw + vw). */
  function OutPieces(s: PeState, g: Geometry): (r: seq<nat>)
    ensures |r| == g.n
  {
    seq(g.n, i requires 0 <= i < g.n => OutPiece(s, g, i))
  }

  /** OUT: the pieces are joined, lane n - 1 first; a result longer than OUTPUT keeps its
      low OUTPUT bits, a shorter one is padded with zeros on the left. */
  function OutValue(cfg: PeConfig, s: PeState, g: Geometry): (r: nat)
    ensures r < Pow2(cfg.outputBits)
    ensures r == PackMsb(OutPieces(s, g), PieceWidth(g)) % Pow2(cfg.outputBits)
  {
    var result := PackMsb(OutPieces(s, g), PieceWidth(g));
    var len := g.n * PieceWidth(g);
    if len > cfg.outputBits then
      result % Pow2(cfg.outputBits)
    else
      Pow2Monotone(len, cfg.outputBits);
      ModUnique(result, Pow2(cfg.outputBits), 0, result);
      if len < cfg.outputBits then
        result // the zero padding on the left does not change the value
      else
        result
  }

  /** Output lane j holds the low bits of accumulator lane j, for every lane that the output
      width keeps whole. */
  lemma OutLane(cfg: PeConfig, s: PeState, g: Geometry, j: nat)
    requires j < g.n && (j + 1) * PieceWidth(g) <= cfg.outputBits
    ensures Lane(OutValue(cfg, s, g), j, PieceWidth(g)) == Lane(s.acc, j, g.vw) % Pow2(PieceWidth(g))
  {
    var pw := PieceWidth(g);
    var pieces := OutPieces(s, g);
    var result := PackMsb(pieces, pw);
    assert j * pw + pw == (j + 1) * pw;
    SliceOfMod(result, cfg.outputBits, j * pw, pw);
    LaneOfPackMsb(pieces, pw, g.n - 1 - j);
    LaneZero(Lane(s.acc, j, g.vw), pw);
    assert pieces[g.n - 1 - j] == Lane(Lane(s.acc, j, g.vw), 0, pw);
    ModUnique(pieces[g.n - 1 - j], Pow2(pw), 0, pieces[g.n - 1 - j]);
  }

  // ---------------------------------------------------------------------------
  // Dispatch
  // ---------------------------------------------------------------------------

  /** The instruction is NO_VALUE with sub-opcode `code` in its value field. */
  predicate IsSubOp(codes: PeCodes, inst: GoldenPeInst, code: nat)
  {
    inst.opcode == codes.noValue && inst.value == code
  }

  /** The instruction runs a handler that reads the mode (MAC, OUT, PASS or RND). */
  predicate UsesMode(codes: PeCodes, inst: GoldenPeInst)
  {
    inst.opcode != codes.noValue
    || inst.value == codes.mac || inst.value == codes.out || inst.value == codes.pass
  }

  /** One instruction: NO_VALUE selects a handler by the value field (an unknown value does
      nothing); every other opcode runs RND with the value field as the shift. */
  function Execute(cfg: PeConfig, codes: PeCodes, s: PeState, inst: GoldenPeInst): (r: Result<PeState, PeError>)
    requires cfg.Valid() && codes.Valid() && WellSized(cfg, s) && cfg.Divides(inst.modeBits)
    ensures r.Success? ==> WellSized(cfg, r.value)
    ensures r.Success? ==> r.value.inputA == s.inputA && r.value.inputB == s.inputB
    ensures r.Failure? <==>
      UsesMode(codes, inst) && (LaneGeometry(cfg, inst.modeBits).None?
        || (IsSubOp(codes, inst, codes.pass) && !PassFits(s, LaneGeometry(cfg, inst.modeBits).value)))
    ensures r.Success? && !IsSubOp(codes, inst, codes.out) && !IsSubOp(codes, inst, codes.clr) ==>
      r.value.output == s.output
    ensures r.Success? && !UsesMode(codes, inst) && !IsSubOp(codes, inst, codes.clr) ==> r.value == s
    ensures r.Success? && IsSubOp(codes, inst, codes.clr) ==> r.value.acc == 0 && r.value.output == 0
    ensures r.Success? && IsSubOp(codes, inst, codes.out) ==> r.value.acc == s.acc
    ensures r.Success? && IsSubOp(codes, inst, codes.mac) ==>
      r.value.acc == MacAcc(cfg, s, LaneGeometry(cfg, inst.modeBits).value)
    ensures r.Success? && IsSubOp(codes, inst, codes.out) ==>
      r.value.output == OutValue(cfg, s, LaneGeometry(cfg, inst.modeBits).value)
    ensures r.Success? && IsSubOp(codes, inst, codes.pass) ==>
      PassAcc(cfg, s, LaneGeometry(cfg, inst.modeBits).value) == Success(r.value.acc)
    ensures r.Success? && inst.opcode != codes.noValue ==>
      r.value.acc == RndAcc(cfg, s, LaneGeometry(cfg, inst.modeBits).value, inst.value)
  {
    if inst.opcode == codes.noValue then
      if inst.value == codes.mac then
        var g :- LaneGeometry(cfg, inst.modeBits).ToResult(ZeroDivision);
        Success(s.(acc := MacAcc(cfg, s, g)))
      else if inst.value == codes.nop then
        Success(s)
      else if inst.value == codes.out then
        var g :- LaneGeometry(cfg, inst.modeBits).ToResult(ZeroDivision);
        Success(s.(output := OutValue(cfg, s, g)))
      else if inst.value == codes.pass then
        var g :- LaneGeometry(cfg, inst.modeBits).ToResult(ZeroDivision);
        var acc :- PassAcc(cfg, s, g);
        Success(s.(acc := acc))
      else if inst.value == codes.clr then
        Success(s.(acc := 0, output := 0))
      else
        Success(s)
    else
      var g :- LaneGeometry(cfg, inst.modeBits).ToResult(ZeroDivision);
      Success(s.(acc := RndAcc(cfg, s, g, inst.value)))
  }

  // ---------------------------------------------------------------------------
  // Properties
  // ---------------------------------------------------------------------------

  /** A MAC into a lane that holds the wrapped value t leaves the wrapped value t + a * b,
      so repeated MACs accumulate and overflow wraps. */
  lemma MacAccumulates(cfg: PeConfig, s: PeState, g: Geometry, t: int, j: nat)
    requires g.Tiles(cfg) && j < g.n && Lane(s.acc, j, g.vw) == FromSigned(t, g.vw)
    ensures Lane(MacAcc(cfg, s, g), j, g.vw)
      == FromSigned(t + ToSigned(Lane(s.inputA, j, g.m), g.m) * ToSigned(Lane(s.inputB, j, g.m), g.m), g.vw)
  {
    WrapAdd(t, ToSigned(Lane(s.inputA, j, g.m), g.m) * ToSigned(Lane(s.inputB, j, g.m), g.m), g.vw);
  }

  /** PASS depends on neither operand b nor the prior accumulator. */
  lemma PassIgnoresAccumulatorAndB(cfg: PeConfig, codes: PeCodes, s1: PeState, s2: PeState, inst: GoldenPeInst)
    requires cfg.Valid() && codes.Valid() && cfg.Divides(inst.modeBits)
    requires WellSized(cfg, s1) && WellSized(cfg, s2) && s1.inputA == s2.inputA
    requires IsSubOp(codes, inst, codes.pass)
    ensures Execute(cfg, codes, s1, inst).Success? == Execute(cfg, codes, s2, inst).Success?
    ensures Execute(cfg, codes, s1, inst).Success? ==>
      Execute(cfg, codes, s1, inst).value.acc == Execute(cfg, codes, s2, inst).value.acc
  {
    var g := LaneGeometry(cfg, inst.modeBits);
    if g.Some? {
      PassAccDependsOnlyOnA(cfg, s1, s2, g.value);
    }
  }

  /** The PASS result is a function of operand a alone. */
  lemma PassAccDependsOnlyOnA(cfg: PeConfig, s1: PeState, s2: PeState, g: Geometry)
    requires g.Tiles(cfg) && s1.inputA == s2.inputA
    ensures PassAcc(cfg, s1, g) == PassAcc(cfg, s2, g)
  {
    assert PassSlices(s1, g) == PassSlices(s2, g);
  }

  /** RND by 0 leaves the accumulator unchanged. */
  lemma RndZeroIdentity(cfg: PeConfig, s: PeState, g: Geometry)
    requires g.Tiles(cfg) && s.acc < Pow2(cfg.accBits)
    ensures RndAcc(cfg, s, g, 0) == s.acc
  {
    var lanes := RndLanes(s, g, 0);
    assert lanes == Lanes(s.acc, g.n, g.vw) by {
      forall j | 0 <= j < g.n
        ensures lanes[j] == Lane(s.acc, j, g.vw)
      {
        var l := Lane(s.acc, j, g.vw);
        assert ToSigned(l, g.vw) / Pow2(0) == ToSigned(l, g.vw);
        ModUnique(l, Pow2(g.vw), 0, l);
      }
    }
    PackLanesExact(s.acc, g.n, g.vw);
  }

  /** PASS then OUT in a mode no wider than the accumulator lane outputs operand a, cut to
      the output width: low bits kept when it is longer, zero padded when shorter. */
  lemma PassThenOut(cfg: PeConfig, s: PeState, g: Geometry)
    requires g.Tiles(cfg) && WellSized(cfg, s) && PassFits(s, g) && g.m <= g.vw
    ensures OutValue(cfg, s.(acc := PassAcc(cfg, s, g).value), g) == s.inputA % Pow2(cfg.outputBits)
  {
    var acc := PassAcc(cfg, s, g).value;
    var t := s.(acc := acc);
    var pieces := OutPieces(t, g);
    assert pieces == LanesMsb(s.inputA, g.n, g.m) by {
      forall i | 0 <= i < g.n
        ensures pieces[i] == Lane(s.inputA, g.n - 1 - i, g.m)
      {
        var k := g.n - 1 - i;
        var a := Lane(s.inputA, k, g.m);
        var l := Lane(acc, k, g.vw);
        // l holds the sign-extension of a; its low m bits are a
        assert ToSigned(l, g.vw) == ToSigned(a, g.m);
        LaneZero(l, g.m);
        assert pieces[i] == Lane(l, 0, g.m);
        SignExtendLow(a, g.m, g.vw);
        ModUnique(l, Pow2(g.vw), 0, l);
        SignedRoundTrip(ToSigned(a, g.m), g.vw);
        assert l == SignExtend(a, g.m, g.vw);
        ModUnique(a, Pow2(g.m), 0, a);
      }
    }
    assert PackMsb(pieces, g.m) == s.inputA by {
      assert Reverse(LanesMsb(s.inputA, g.n, g.m)) == Lanes(s.inputA, g.n, g.m);
      PackLanesExact(s.inputA, g.n, g.m);
    }
  }

  /** An accumulator lane at least as wide as the mode holds every sign-extended operand lane. */
  lemma PassFitsWhenWider(s: PeState, g: Geometry)
    requires 0 < g.m <= g.vw
    ensures PassFits(s, g)
  {
    forall k | 0 <= k < g.n
      ensures FitsSigned(PassValue(s, g, k), g.vw)
    {
      Pow2Monotone(g.m - 1, g.vw - 1);
    }
  }

  /** The lane geometry of a standard mode of the element with 32-bit input, 64-bit
      accumulator and 32-bit output. */
  function StandardMode(m: nat): (g: Geometry)
    requires m == 8 || m == 16 || m == 32
    ensures g.Tiles(PeConfig(32, 64, 32)) && g.m == m && g.m <= g.vw
    ensures PeConfig(32, 64, 32).Divides(m) && LaneGeometry(PeConfig(32, 64, 32), m) == Some(g)
  {
    StandardGeometry(32);
    if m == 8 then Geometry(4, 8, 16)
    else if m == 16 then Geometry(2, 16, 32)
    else Geometry(1, 32, 64)
  }

  /** With 32-bit input, 64-bit accumulator and 32-bit output, PASS then OUT in any standard
      mode outputs operand a exactly. */
  lemma PassThenOutStandard(s: PeState, m: nat)
    requires m == 8 || m == 16 || m == 32
    requires WellSized(PeConfig(32, 64, 32), s)
    ensures var g := StandardMode(m);
      PassFits(s, g) && OutValue(PeConfig(32, 64, 32), s.(acc := PassAcc(PeConfig(32, 64, 32), s, g).value), g) == s.inputA
  {
    var cfg := PeConfig(32, 64, 32);
    var g := StandardMode(m);
    PassFitsWhenWider(s, g);
    PassThenOut(cfg, s, g);
    ModSmall(s.inputA, Pow2(32));
  }
}

=== FILE: isa.dfy ===
/**
  Instruction layouts shared by the sequencer, the main buffer and the processing elements.

  The packed layouts and the numeric opcode constants live in a header that is not part of
  this model. The field widths are those declared where the fields are read (a 2-bit
  opcode and mode, a 5-bit value, 10-bit offsets and count, 1-bit increment flags). The
  opcode constants are kept abstract: they are fields of the `PeCodes` and `MemCodes`
  records, which only promise that the constants fit their fields and are distinct.
 */
module Isa {

  const OPCODE_BITS := 2
  const MODE_BITS := 2
  const VALUE_BITS := 5
  const OFFSET_BITS := 10
  const COUNT_BITS := 10

  /** Number of processing elements in the array. */
  const N_PE := 16

  /** The opcode and sub-opcode constants of a processing-element instruction. */
  datatype PeCodes = PeCodes(rnd: nat, noValue: nat, mac: nat, pass: nat, out: nat, clr: nat, nop: nat)
  {
    predicate Valid() {
      && rnd < 4 && noValue < 4 && rnd != noValue
      && mac < 32 && pass < 32 && out < 32 && clr < 32 && nop < 32
      && mac != pass && mac != out && mac != clr && mac != nop
      && pass != out && pass != clr && pass != nop
      && out != clr && out != nop
      && clr != nop
    }
  }

  /** The opcode constants of a memory instruction. */
  datatype MemCodes = MemCodes(read: nat, write: nat, nop: nat)
  {
    predicate Valid() {
      read < 4 && write < 4 && nop < 4 && read != write && read != nop && write != nop
    }
  }

  /** A processing-element instruction: opcode, precision mode and the value field, which is a
      sub-opcode when the opcode is not RND and a shift amount when it is. */
  datatype PeInst = PeInst(opcode: nat, mode: nat, value: nat)
  {
    predicate WellFormed() {
      opcode < 4 && mode < 4 && value < 32
    }
  }

  /** A memory instruction: opcode, precision mode, matrix row offset and vector element offset. */
  datatype MemInst = MemInst(opcode: nat, mode: nat, memaOffset: nat, membOffset: nat)
  {
    predicate WellFormed() {
      opcode < 4 && mode < 4 && memaOffset < 1024 && membOffset < 1024
    }
  }

  /** The compound instruction: a memory and a processing-element instruction issued
      count + 1 times, with optional auto-increment of the two memory offsets. */
  datatype Instruction = Instruction(mem: MemInst, pe: PeInst, count: nat, memaInc: bool, membInc: bool)
  {
    predicate WellFormed() {
      mem.WellFormed() && pe.WellFormed() && count < 1024
    }
  }
}

=== FILE: main_buffer.dfy ===
/**
  The main buffer of the hardware implementation: three flat memories of 32-bit words
  (matrix, vector, output) and one clock cycle of request servicing.

  In one cycle the buffer tries, in this order and each without blocking:
    1. an external matrix write (address channel, then data channel),
    2. an external vector write (same pattern),
    3. an external output read (address channel; the word is pushed back),
    4. one memory instruction from the sequencer: READ feeds every lane, WRITE drains
       every lane, NOP and unknown opcodes do nothing.
  A channel that has no data this cycle is `None`. The words the lanes push for a WRITE
  are `laneOutputs`, lane 0 first.
 */
module MainBuffer {
  import opened Bits
  import opened Wrappers
  import opened Isa

  /** The three memories, each indexed by word. */
  datatype Memories = Memories(matrix: seq<nat>, vector: seq<nat>, output: seq<nat>)

  /** The heads of the buffer's input channels in one cycle. */
  datatype CycleInputs = CycleInputs(
    matrixWriteAddr: Option<nat>,
    matrixWriteData: Option<nat>,
    vectorWriteAddr: Option<nat>,
    vectorWriteData: Option<nat>,
    outputReadAddr: Option<nat>,
    inst: Option<MemInst>,
    laneOutputs: seq<nat>)

  /** What one cycle did: the memories after it, which data words it consumed, the word it
      pushed to the output reader, the words it pushed to each lane, and whether it drained
      the lanes' output words. */
  datatype CycleOutputs = CycleOutputs(
    mems: Memories,
    matrixDataTaken: bool,
    vectorDataTaken: bool,
    readData: Option<nat>,
    matrixOut: seq<nat>,
    vectorOut: seq<nat>,
    laneOutputsTaken: bool)

  /** The memory after an external write request, and whether the data word was popped. */
  datatype WriteOutcome = WriteOutcome(mem: seq<nat>, dataTaken: bool)

  /** The external write pattern: the address is popped first; only if that succeeds is the
      data word popped, and only if both are present is the memory written. */
  function ExternalWrite(mem: seq<nat>, addr: Option<nat>, data: Option<nat>): (r: WriteOutcome)
    requires addr.Some? && data.Some? ==> addr.value < |mem|
    ensures |r.mem| == |mem|
    ensures r.dataTaken <==> addr.Some? && data.Some?
    ensures forall j :: 0 <= j < |mem| ==>
      r.mem[j] == (if r.dataTaken && j == addr.value then data.value else mem[j])
  {
    if addr.Some? then
      if data.Some? then WriteOutcome(mem[addr.value := data.value], true)
      else WriteOutcome(mem, false)
    else WriteOutcome(mem, false)
  }

  /** The word index in vector memory that a READ in `mode` reads for element `membOffset`:
      mode 2 addresses words, mode 1 half-words and every other mode bytes. */
  function VectorWordIndex(mode: nat, membOffset: nat): nat
  {
    if mode == 2 then membOffset
    else if mode == 1 then membOffset / 2
    else membOffset / 4
  }

  /** The vector operand a READ broadcasts: a whole word in mode 2; in mode 1 the addressed
      16-bit half written into both halves; otherwise the addressed byte written into all
      four bytes. */
  function VectorOperand(vector: seq<nat>, mode: nat, membOffset: nat): (r: nat)
    requires VectorWordIndex(mode, membOffset) < |vector|
    ensures mode == 2 ==> r == vector[membOffset]
    ensures mode == 1 ==> r < Pow2(32) && forall k :: 0 <= k < 2 ==>
      Lane(r, k, 16) == Slice(vector[membOffset / 2], 16 * (membOffset % 2), 16)
    ensures mode != 1 && mode != 2 ==> r < Pow2(32) && forall k :: 0 <= k < 4 ==>
      Lane(r, k, 8) == Slice(vector[membOffset / 4], 8 * (membOffset % 4), 8)
  {
    if mode == 2 then
      vector[membOffset]
    else if mode == 1 then
      HalfWordBroadcast(vector[membOffset / 2], membOffset % 2)
    else
      ByteBroadcast(vector[membOffset / 4], membOffset % 4)
  }

  /** Mode 1: the 16-bit half `subIdx` of `raw`, written into both halves of the word. */
  function HalfWordBroadcast(raw: nat, subIdx: nat): (r: nat)
    ensures r < Pow2(32)
    ensures forall k :: 0 <= k < 2 ==> Lane(r, k, 16) == Slice(raw, 16 * subIdx, 16)
  {
    var subElem := Slice(raw, subIdx * 16, 16);
    ModUnique(subElem, Pow2(16), 0, subElem);
    Replicate(subElem, 2, 16)
  }

  /** Modes 0 and 3: byte `subIdx` of `raw`, written into all four bytes of the word. */
  function ByteBroadcast(raw: nat, subIdx: nat): (r: nat)
    ensures r < Pow2(32)
    ensures forall k :: 0 <= k < 4 ==> Lane(r, k, 8) == Slice(raw, 8 * subIdx, 8)
  {
    var subElem := Slice(raw, subIdx * 8, 8);
    ModUnique(subElem, Pow2(8), 0, subElem);
    Replicate(subElem, 4, 8)
  }

  /** The matrix words a READ sends: lane i gets the word at row * N_PE + i. */
  function MatrixRow(matrix: seq<nat>, row: nat): (r: seq<nat>)
    requires row * N_PE + N_PE <= |matrix|
    ensures |r| == N_PE
    ensures forall i :: 0 <= i < N_PE ==> r[i] == matrix[row * N_PE + i]
  {
    seq(N_PE, i requires 0 <= i < N_PE => matrix[row * N_PE + i])
  }

  /** WRITE's store loop: words[0], words[1], ... are stored in ascending order from `base`. */
  function {:induction false} StoreRow(mem: seq<nat>, base: nat, words: seq<nat>): (r: seq<nat>)
    requires base + |words| <= |mem|
    ensures |r| == |mem|
    ensures forall j :: base <= j < base + |words| ==> r[j] == words[j - base]
    ensures forall j :: 0 <= j < |mem| && !(base <= j < base + |words|) ==> r[j] == mem[j]
    decreases |words|
  {
    if |words| == 0 then mem
    else StoreRow(mem[base := words[0]], base + 1, words[1..])
  }

  /** READ's row addressing and WRITE's store loop use the same cells: the words a WRITE
      stores for a row are exactly what a READ of that row in the same memory returns. */
  lemma RowRoundTrip(mem: seq<nat>, row: nat, words: seq<nat>)
    requires row * N_PE + N_PE <= |mem| && |words| == N_PE
    ensures MatrixRow(StoreRow(mem, row * N_PE, words), row) == words
  {
    var r := MatrixRow(StoreRow(mem, row * N_PE, words), row);
    assert forall i :: 0 <= i < N_PE ==> r[i] == words[i];
  }

  /** The bounds every memory access of a cycle needs; the hardware does not check them. */
  predicate InBounds(codes: MemCodes, m: Memories, cin: CycleInputs)
  {
    && (cin.matrixWriteAddr.Some? && cin.matrixWriteData.Some? ==> cin.matrixWriteAddr.value < |m.matrix|)
    && (cin.vectorWriteAddr.Some? && cin.vectorWriteData.Some? ==> cin.vectorWriteAddr.value < |m.vector|)
    && (cin.outputReadAddr.Some? ==> cin.outputReadAddr.value < |m.output|)
    && (cin.inst.Some? && cin.inst.value.opcode == codes.read ==>
          && cin.inst.value.memaOffset * N_PE + N_PE <= |m.matrix|
          && VectorWordIndex(cin.inst.value.mode, cin.inst.value.membOffset) < |m.vector|)
    && (cin.inst.Some? && cin.inst.value.opcode == codes.write ==>
          && cin.inst.value.memaOffset * N_PE + N_PE <= |m.output|
          && |cin.laneOutputs| == N_PE)
  }

  /** Steps 1 to 3 of a cycle: the external requests. */
  function ExternalPhase(m: Memories, cin: CycleInputs): (r: CycleOutputs)
    requires cin.matrixWriteAddr.Some? && cin.matrixWriteData.Some? ==> cin.matrixWriteAddr.value < |m.matrix|
    requires cin.vectorWriteAddr.Some? && cin.vectorWriteData.Some? ==> cin.vectorWriteAddr.value < |m.vector|
    requires cin.outputReadAddr.Some? ==> cin.outputReadAddr.value < |m.output|
    ensures r.mems.output == m.output
    ensures r.matrixDataTaken <==> cin.matrixWriteAddr.Some? && cin.matrixWriteData.Some?
    ensures r.vectorDataTaken <==> cin.vectorWriteAddr.Some? && cin.vectorWriteData.Some?
    ensures |r.mems.matrix| == |m.matrix| && |r.mems.vector| == |m.vector|
    ensures forall j :: 0 <= j < |m.matrix| ==>
      r.mems.matrix[j] == (if r.matrixDataTaken && j == cin.matrixWriteAddr.value then cin.matrixWriteData.value else m.matrix[j])
    ensures forall j :: 0 <= j < |m.vector| ==>
      r.mems.vector[j] == (if r.vectorDataTaken && j == cin.vectorWriteAddr.value then cin.vectorWriteData.value else m.vector[j])
    ensures r.readData.Some? <==> cin.outputReadAddr.Some?
    ensures r.readData.Some? ==> r.readData.value == m.output[cin.outputReadAddr.value]
    ensures r.matrixOut == [] && r.vectorOut == [] && !r.laneOutputsTaken
  {
    var mw := ExternalWrite(m.matrix, cin.matrixWriteAddr, cin.matrixWriteData);
    var vw := ExternalWrite(m.vector, cin.vectorWriteAddr, cin.vectorWriteData);
    var readData := if cin.outputReadAddr.Some? then Some(m.output[cin.outputReadAddr.value]) else None;
    CycleOutputs(Memories(mw.mem, vw.mem, m.output), mw.dataTaken, vw.dataTaken, readData, [], [], false)
  }

  /** Step 4 of a cycle: one memory instruction, given the memories after steps 1 to 3. */
  function Dispatch(codes: MemCodes, m: Memories, inst: MemInst, laneOutputs: seq<nat>, before: CycleOutputs): (r: CycleOutputs)
    requires codes.Valid() && before.mems == m && !before.laneOutputsTaken
    requires inst.opcode == codes.read ==>
      inst.memaOffset * N_PE + N_PE <= |m.matrix| && VectorWordIndex(inst.mode, inst.membOffset) < |m.vector|
    requires inst.opcode == codes.write ==>
      inst.memaOffset * N_PE + N_PE <= |m.output| && |laneOutputs| == N_PE
    ensures r.mems.matrix == m.matrix && r.mems.vector == m.vector
    ensures inst.opcode != codes.write ==> r.mems.output == m.output
    ensures r.laneOutputsTaken <==> inst.opcode == codes.write
    ensures r.readData == before.readData
    ensures r.matrixDataTaken == before.matrixDataTaken && r.vectorDataTaken == before.vectorDataTaken
  {
    if inst.opcode == codes.read then
      var vecData := VectorOperand(m.vector, inst.mode, inst.membOffset);
      before.(matrixOut := MatrixRow(m.matrix, inst.memaOffset),
              vectorOut := seq(N_PE, _ => vecData))
    else if inst.opcode == codes.write then
      before.(mems := m.(output := StoreRow(m.output, inst.memaOffset * N_PE, laneOutputs)),
              laneOutputsTaken := true)
    else
      // NOP, and any opcode the decode does not recognise
      before
  }

  /** One clock cycle of the main buffer. */
  function Cycle(codes: MemCodes, m: Memories, cin: CycleInputs): (r: CycleOutputs)
    requires codes.Valid() && InBounds(codes, m, cin)
    ensures |r.mems.matrix| == |m.matrix| && |r.mems.vector| == |m.vector| && |r.mems.output| == |m.output|
  {
    var ext := ExternalPhase(m, cin);
    if cin.inst.Some? then Dispatch(codes, ext.mems, cin.inst.value, cin.laneOutputs, ext)
    else ext
  }

  // ---------------------------------------------------------------------------
  // Properties of a cycle
  // ---------------------------------------------------------------------------

  /** The external matrix and vector writes each store their data word and change no
      other cell of any memory apart from what the cycle's WRITE stores in the output
      memory; an address without data is consumed and nothing is written; no address
      means the data word stays in its channel. */
  lemma ExternalWriteEffect(codes: MemCodes, m: Memories, cin: CycleInputs)
    requires codes.Valid() && InBounds(codes, m, cin)
    ensures var r := Cycle(codes, m, cin);
      && (r.matrixDataTaken <==> cin.matrixWriteAddr.Some? && cin.matrixWriteData.Some?)
      && (r.vectorDataTaken <==> cin.vectorWriteAddr.Some? && cin.vectorWriteData.Some?)
      && (forall j :: 0 <= j < |m.matrix| ==>
            r.mems.matrix[j] == (if r.matrixDataTaken && j == cin.matrixWriteAddr.value
                                 then cin.matrixWriteData.value else m.matrix[j]))
      && (forall j :: 0 <= j < |m.vector| ==>
            r.mems.vector[j] == (if r.vectorDataTaken && j == cin.vectorWriteAddr.value
                                 then cin.vectorWriteData.value else m.vector[j]))
      && (cin.inst.None? || cin.inst.value.opcode != codes.write ==> r.mems.output == m.output)
  {
  }

  /** An output read returns the output word as it was at the start of the cycle. */
  lemma OutputReadEffect(codes: MemCodes, m: Memories, cin: CycleInputs)
    requires codes.Valid() && InBounds(codes, m, cin)
    ensures var r := Cycle(codes, m, cin);
      && (r.readData.Some? <==> cin.outputReadAddr.Some?)
      && (r.readData.Some? ==> r.readData.value == m.output[cin.outputReadAddr.value])
  {
  }

  /** A READ sends lane i the matrix word at row * N_PE + i, as left by this cycle's
      external writes, broadcasts one vector operand to every lane, and writes nothing. */
  lemma ReadEffect(codes: MemCodes, m: Memories, cin: CycleInputs)
    requires codes.Valid() && InBounds(codes, m, cin)
    requires cin.inst.Some? && cin.inst.value.opcode == codes.read
    ensures var r := Cycle(codes, m, cin);
      var inst := cin.inst.value;
      var ext := ExternalPhase(m, cin);
      && |r.matrixOut| == N_PE && |r.vectorOut| == N_PE
      && (forall i :: 0 <= i < N_PE ==> r.matrixOut[i] == ext.mems.matrix[inst.memaOffset * N_PE + i])
      && (forall i :: 0 <= i < N_PE ==> r.vectorOut[i] == VectorOperand(ext.mems.vector, inst.mode, inst.membOffset))
      && r.mems == ext.mems
      && !r.laneOutputsTaken
  {
  }

  /** A READ sees a matrix word written by the same cycle's external write. */
  lemma ReadSeesSameCycleWrite(codes: MemCodes, m: Memories, cin: CycleInputs, i: nat)
    requires codes.Valid() && InBounds(codes, m, cin)
    requires cin.inst.Some? && cin.inst.value.opcode == codes.read && i < N_PE
    requires cin.matrixWriteAddr == Some(cin.inst.value.memaOffset * N_PE + i) && cin.matrixWriteData.Some?
    ensures Cycle(codes, m, cin).matrixOut[i] == cin.matrixWriteData.value
  {
    ReadEffect(codes, m, cin);
  }

  /** A mode-2 READ sees a vector word written by the same cycle's external write. */
  lemma ReadSeesSameCycleVectorWrite(codes: MemCodes, m: Memories, cin: CycleInputs, i: nat)
    requires codes.Valid() && InBounds(codes, m, cin)
    requires cin.inst.Some? && cin.inst.value.opcode == codes.read && cin.inst.value.mode == 2 && i < N_PE
    requires cin.vectorWriteAddr == Some(cin.inst.value.membOffset) && cin.vectorWriteData.Some?
    ensures Cycle(codes, m, cin).vectorOut[i] == cin.vectorWriteData.value
  {
    ReadEffect(codes, m, cin);
  }

  /** A WRITE stores lane i's output word at row * N_PE + i and changes no other cell. */
  lemma WriteEffect(codes: MemCodes, m: Memories, cin: CycleInputs)
    requires codes.Valid() && InBounds(codes, m, cin)
    requires cin.inst.Some? && cin.inst.value.opcode == codes.write
    ensures var r := Cycle(codes, m, cin);
      var base := cin.inst.value.memaOffset * N_PE;
      && r.laneOutputsTaken
      && (forall i :: 0 <= i < N_PE ==> r.mems.output[base + i] == cin.laneOutputs[i])
      && (forall j :: 0 <= j < |m.output| && !(base <= j < base + N_PE) ==> r.mems.output[j] == m.output[j])
      && r.matrixOut == [] && r.vectorOut == []
  {
    var r := Cycle(codes, m, cin);
    var base := cin.inst.value.memaOffset * N_PE;
    forall i | 0 <= i < N_PE
      ensures r.mems.output[base + i] == cin.laneOutputs[i]
    {
      assert base <= base + i < base + N_PE;
    }
  }

  /** A NOP, an unknown opcode or an empty instruction channel only does the external requests. */
  lemma IdleEffect(codes: MemCodes, m: Memories, cin: CycleInputs)
    requires codes.Valid() && InBounds(codes, m, cin)
    requires cin.inst.None? || (cin.inst.value.opcode != codes.read && cin.inst.value.opcode != codes.write)
    ensures Cycle(codes, m, cin) == ExternalPhase(m, cin)
    ensures Cycle(codes, m, cin).matrixOut == [] && !Cycle(codes, m, cin).laneOutputsTaken
  {
  }

  /** READ in mode 1 broadcasts the addressed 16-bit half of vector[offset >> 1] in both halves. */
  lemma ReadHalfWord(vector: seq<nat>, membOffset: nat)
    requires membOffset / 2 < |vector|
    ensures var r := VectorOperand(vector, 1, membOffset);
      && r < Pow2(32)
      && Lane(r, 0, 16) == Lane(r, 1, 16) == Slice(vector[membOffset / 2], 16 * (membOffset % 2), 16)
  {
  }
}

=== FILE: processing_element.dfy ===
/**
  The processing element of the hardware implementation: one 64-bit accumulator register
  and the decode of one instruction per cycle.

  A 32-bit operand word is split into 4 lanes of 8 bits, 2 lanes of 16 bits or 1 lane of
  32 bits, and the accumulator into the same number of lanes of twice the width. Lane i
  of a word sits at bits [i * w, i * w + w).

  One cycle is `Step(codes, acc, inst, mat, vec)`. The operands `mat` and `vec` are the
  words at the heads of the matrix and vector operand channels; `popsOperands` says
  whether the cycle takes them, and `output` is the word pushed on the output channel.
 */
module ProcessingElement {
  import opened Bits
  import opened Wrappers
  import opened Isa

  /** Width of an operand word (the vector type). */
  const WORD_BITS := 32
  /** Width of the accumulator register. */
  const ACC_BITS := 64

  /** The three precisions and their lane table. */
  datatype Precision = Int8 | Int16 | Int32
  {
    /** Number of lanes in a word. */
    function LaneCount(): nat {
      match this
      case Int8 => 4
      case Int16 => 2
      case Int32 => 1
    }

    /** Width of one operand lane. */
    function InWidth(): (w: nat)
      ensures w > 0
    {
      match this
      case Int8 => 8
      case Int16 => 16
      case Int32 => 32
    }

    /** Width of one accumulator lane. */
    function AccWidth(): (w: nat)
      ensures w > 0
    {
      match this
      case Int8 => 16
      case Int16 => 32
      case Int32 => 64
    }
  }

  /** The lanes of a precision tile the operand word and the accumulator exactly. */
  lemma PrecisionTiles(p: Precision)
    ensures p.LaneCount() * p.InWidth() == WORD_BITS
    ensures p.LaneCount() * p.AccWidth() == ACC_BITS
    ensures p.AccWidth() == 2 * p.InWidth() && p.InWidth() > 0
  {
  }

  /** How the processing element reads the 2-bit mode field: 0 and 1 are tested
      explicitly and every other value takes the 32-bit branch. */
  function PeMode(mode: nat): (p: Precision)
    ensures mode == 0 ==> p.LaneCount() == 4 && p.InWidth() == 8 && p.AccWidth() == 16
    ensures mode == 1 ==> p.LaneCount() == 2 && p.InWidth() == 16 && p.AccWidth() == 32
    ensures mode >= 2 ==> p.LaneCount() == 1 && p.InWidth() == 32 && p.AccWidth() == 64
  {
    if mode == 0 then Int8 else if mode == 1 then Int16 else Int32
  }

  // ---------------------------------------------------------------------------
  // The per-lane datapaths
  // ---------------------------------------------------------------------------

  /** One RND lane: the signed lane shifted right arithmetically, written back. */
  function RndLane(acc: nat, p: Precision, shift: nat, i: nat): (r: nat)
    ensures r < Pow2(p.AccWidth())
  {
    FromSigned(ToSigned(Lane(acc, i, p.AccWidth()), p.AccWidth()) / Pow2(shift), p.AccWidth())
  }

  /** The RND lanes, lane 0 first. */
  function RndLanes(acc: nat, p: Precision, shift: nat): (r: seq<nat>)
    ensures |r| == p.LaneCount()
  {
    seq(p.LaneCount(), i requires 0 <= i < p.LaneCount() => RndLane(acc, p, shift, i))
  }

  /** RND: every accumulator lane is shifted right arithmetically by `shift`. */
  function Rnd(acc: nat, p: Precision, shift: nat): (r: nat)
    ensures r < Pow2(ACC_BITS)
    ensures forall i :: 0 <= i < p.LaneCount() ==>
      ToSigned(Lane(r, i, p.AccWidth()), p.AccWidth())
        == ToSigned(Lane(acc, i, p.AccWidth()), p.AccWidth()) / Pow2(shift)
  {
    var lanes := RndLanes(acc, p, shift);
    PrecisionTiles(p);
    forall i | 0 <= i < p.LaneCount()
      ensures ToSigned(Lane(Pack(lanes, p.AccWidth()), i, p.AccWidth()), p.AccWidth())
        == ToSigned(Lane(acc, i, p.AccWidth()), p.AccWidth()) / Pow2(shift)
    {
      RndPackedLane(acc, p, shift, i);
    }
    Pack(lanes, p.AccWidth())
  }

  /** Lane i of the packed RND lanes has the shifted signed value of accumulator lane i. */
  lemma RndPackedLane(acc: nat, p: Precision, shift: nat, i: nat)
    requires i < p.LaneCount()
    ensures ToSigned(Lane(Pack(RndLanes(acc, p, shift), p.AccWidth()), i, p.AccWidth()), p.AccWidth())
      == ToSigned(Lane(acc, i, p.AccWidth()), p.AccWidth()) / Pow2(shift)
  {
    var lanes := RndLanes(acc, p, shift);
    var lane := RndLane(acc, p, shift, i);
    assert lanes[i] == lane;
    LaneOfPack(lanes, p.AccWidth(), i);
    ModSmall(lane, Pow2(p.AccWidth()));
    var v := ToSigned(Lane(acc, i, p.AccWidth()), p.AccWidth());
    ShiftStaysInRange(v, p.AccWidth(), shift);
    SignedRoundTrip(v / Pow2(shift), p.AccWidth());
  }

  /** One MAC lane: the two sign-extended operand lanes are multiplied, the product is
      narrowed to the accumulator lane width and added to the lane with wrap-around. */
  function MacLane(acc: nat, mat: nat, vec: nat, p: Precision, i: nat): (r: nat)
    ensures r < Pow2(p.AccWidth())
  {
    var m := ToSigned(Lane(mat, i, p.InWidth()), p.InWidth());
    var v := ToSigned(Lane(vec, i, p.InWidth()), p.InWidth());
    var product := ToSigned(FromSigned(m * v, p.AccWidth()), p.AccWidth());
    FromSigned(ToSigned(Lane(acc, i, p.AccWidth()), p.AccWidth()) + product, p.AccWidth())
  }

  /** The narrowing of a lane product to the accumulator lane width loses nothing. */
  lemma MacProductExact(mat: nat, vec: nat, p: Precision, i: nat)
    ensures
      var m := ToSigned(Lane(mat, i, p.InWidth()), p.InWidth());
      var v := ToSigned(Lane(vec, i, p.InWidth()), p.InWidth());
      ToSigned(FromSigned(m * v, p.AccWidth()), p.AccWidth()) == m * v
  {
    var m := ToSigned(Lane(mat, i, p.InWidth()), p.InWidth());
    var v := ToSigned(Lane(vec, i, p.InWidth()), p.InWidth());
    ProductFits(m, v, p.InWidth());
    SignedRoundTrip(m * v, p.AccWidth());
  }

  /** A MAC lane is the wrapped sum of the accumulator lane and the full product. */
  lemma MacLaneExact(acc: nat, mat: nat, vec: nat, p: Precision, i: nat)
    ensures MacLane(acc, mat, vec, p, i)
      == FromSigned(ToSigned(Lane(acc, i, p.AccWidth()), p.AccWidth())
                    + ToSigned(Lane(mat, i, p.InWidth()), p.InWidth())
                      * ToSigned(Lane(vec, i, p.InWidth()), p.InWidth()),
                    p.AccWidth())
  {
    MacProductExact(mat, vec, p, i);
  }

  /** The MAC lanes, lane 0 first. */
  function MacLanes(acc: nat, mat: nat, vec: nat, p: Precision): (r: seq<nat>)
    ensures |r| == p.LaneCount()
  {
    seq(p.LaneCount(), i requires 0 <= i < p.LaneCount() => MacLane(acc, mat, vec, p, i))
  }

  /** MAC: every accumulator lane gains the product of the signed operand lanes, modulo
      the lane width. */
  function Mac(acc: nat, mat: nat, vec: nat, p: Precision): (r: nat)
    ensures r < Pow2(ACC_BITS)
    ensures forall i :: 0 <= i < p.LaneCount() ==>
      Lane(r, i, p.AccWidth())
        == FromSigned(ToSigned(Lane(acc, i, p.AccWidth()), p.AccWidth())
                      + ToSigned(Lane(mat, i, p.InWidth()), p.InWidth())
                        * ToSigned(Lane(vec, i, p.InWidth()), p.InWidth()),
                      p.AccWidth())
  {
    var lanes := MacLanes(acc, mat, vec, p);
    PrecisionTiles(p);
    forall i | 0 <= i < p.LaneCount()
      ensures Lane(Pack(lanes, p.AccWidth()), i, p.AccWidth())
        == FromSigned(ToSigned(Lane(acc, i, p.AccWidth()), p.AccWidth())
                      + ToSigned(Lane(mat, i, p.InWidth()), p.InWidth())
                        * ToSigned(Lane(vec, i, p.InWidth()), p.InWidth()),
                      p.AccWidth())
    {
      MacPackedLane(acc, mat, vec, p, i);
    }
    Pack(lanes, p.AccWidth())
  }

  /** Lane i of the packed MAC lanes is the wrapped sum of the accumulator lane and the product. */
  lemma MacPackedLane(acc: nat, mat: nat, vec: nat, p: Precision, i: nat)
    requires i < p.LaneCount()
    ensures Lane(Pack(MacLanes(acc, mat, vec, p), p.AccWidth()), i, p.AccWidth())
      == FromSigned(ToSigned(Lane(acc, i, p.AccWidth()), p.AccWidth())
                    + ToSigned(Lane(mat, i, p.InWidth()), p.InWidth())
                      * ToSigned(Lane(vec, i, p.InWidth()), p.InWidth()),
                    p.AccWidth())
  {
    var lanes := MacLanes(acc, mat, vec, p);
    var lane := MacLane(acc, mat, vec, p, i);
    assert lanes[i] == lane;
    LaneOfPack(lanes, p.AccWidth(), i);
    ModSmall(lane, Pow2(p.AccWidth()));
    MacLaneExact(acc, mat, vec, p, i);
  }

  /** The PASS lanes, lane 0 first: each vector lane sign-extended to the accumulator lane width. */
  function PassLanes(vec: nat, p: Precision): (r: seq<nat>)
    ensures |r| == p.LaneCount()
  {
    seq(p.LaneCount(), i requires 0 <= i < p.LaneCount() =>
      SignExtend(Lane(vec, i, p.InWidth()), p.InWidth(), p.AccWidth()))
  }

  /** PASS: every accumulator lane becomes the sign-extended vector operand lane. */
  function Pass(vec: nat, p: Precision): (r: nat)
    ensures r < Pow2(ACC_BITS)
    ensures forall i :: 0 <= i < p.LaneCount() ==>
      ToSigned(Lane(r, i, p.AccWidth()), p.AccWidth()) == ToSigned(Lane(vec, i, p.InWidth()), p.InWidth())
  {
    var lanes := PassLanes(vec, p);
    PrecisionTiles(p);
    forall i | 0 <= i < p.LaneCount()
      ensures ToSigned(Lane(Pack(lanes, p.AccWidth()), i, p.AccWidth()), p.AccWidth())
        == ToSigned(Lane(vec, i, p.InWidth()), p.InWidth())
    {
      PassPackedLane(vec, p, i);
    }
    Pack(lanes, p.AccWidth())
  }

  /** Lane i of the packed PASS lanes has the signed value of vector lane i. */
  lemma PassPackedLane(vec: nat, p: Precision, i: nat)
    requires i < p.LaneCount()
    ensures ToSigned(Lane(Pack(PassLanes(vec, p), p.AccWidth()), i, p.AccWidth()), p.AccWidth())
      == ToSigned(Lane(vec, i, p.InWidth()), p.InWidth())
  {
    var lanes := PassLanes(vec, p);
    PrecisionTiles(p);
    LaneOfPack(lanes, p.AccWidth(), i);
    ModSmall(lanes[i], Pow2(p.AccWidth()));
    SignExtendValue(Lane(vec, i, p.InWidth()), p.InWidth(), p.AccWidth());
  }

  /** The OUT lanes, lane 0 first: the low operand-width bits of each accumulator lane. */
  function OutLanes(acc: nat, p: Precision): (r: seq<nat>)
    ensures |r| == p.LaneCount()
  {
    seq(p.LaneCount(), i requires 0 <= i < p.LaneCount() => Slice(Lane(acc, i, p.AccWidth()), 0, p.InWidth()))
  }

  /** OUT: output lane i holds the low bits of accumulator lane i. */
  function Out(acc: nat, p: Precision): (r: nat)
    ensures r < Pow2(WORD_BITS)
    ensures forall i :: 0 <= i < p.LaneCount() ==>
      Lane(r, i, p.InWidth()) == Lane(acc, i, p.AccWidth()) % Pow2(p.InWidth())
  {
    var lanes := OutLanes(acc, p);
    PrecisionTiles(p);
    forall i | 0 <= i < p.LaneCount()
      ensures Lane(Pack(lanes, p.InWidth()), i, p.InWidth()) == Lane(acc, i, p.AccWidth()) % Pow2(p.InWidth())
    {
      OutPackedLane(acc, p, i);
    }
    Pack(lanes, p.InWidth())
  }

  /** Lane i of the packed OUT lanes is the low part of accumulator lane i. */
  lemma OutPackedLane(acc: nat, p: Precision, i: nat)
    requires i < p.LaneCount()
    ensures Lane(Pack(OutLanes(acc, p), p.InWidth()), i, p.InWidth())
      == Lane(acc, i, p.AccWidth()) % Pow2(p.InWidth())
  {
    var lanes := OutLanes(acc, p);
    PrecisionTiles(p);
    LaneOfPack(lanes, p.InWidth(), i);
    LaneZero(Lane(acc, i, p.AccWidth()), p.InWidth());
    assert lanes[i] == Lane(Lane(acc, i, p.AccWidth()), 0, p.InWidth());
    ModSmall(lanes[i], Pow2(p.InWidth()));
  }

  // ---------------------------------------------------------------------------
  // One cycle
  // ---------------------------------------------------------------------------

  /** What one cycle does: the new accumulator, whether both operand channels were popped,
      and the word pushed on the output channel, if any. */
  datatype PeStep = PeStep(acc: nat, popsOperands: bool, output: Option<nat>)

  /** The instruction is not RND and its value field is the sub-opcode `code`. */
  predicate IsSubOp(codes: PeCodes, inst: PeInst, code: nat)
  {
    inst.opcode != codes.rnd && inst.value == code
  }

  /** One cycle of the processing element for a popped instruction. */
  function Step(codes: PeCodes, acc: nat, inst: PeInst, mat: nat, vec: nat): (r: PeStep)
    requires codes.Valid() && acc < Pow2(ACC_BITS)
    ensures r.acc < Pow2(ACC_BITS)
    ensures r.popsOperands <==> IsSubOp(codes, inst, codes.mac) || IsSubOp(codes, inst, codes.pass)
    ensures r.output.Some? <==> IsSubOp(codes, inst, codes.out)
    ensures r.output.Some? ==> r.acc == acc && r.output.value < Pow2(WORD_BITS)
    ensures IsSubOp(codes, inst, codes.clr) ==> r.acc == 0
    ensures (inst.opcode != codes.rnd && inst.value != codes.mac && inst.value != codes.pass
             && inst.value != codes.clr) ==> r.acc == acc
    ensures inst.opcode == codes.rnd ==> r.acc == Rnd(acc, PeMode(inst.mode), inst.value)
    ensures IsSubOp(codes, inst, codes.mac) ==> r.acc == Mac(acc, mat, vec, PeMode(inst.mode))
    ensures IsSubOp(codes, inst, codes.pass) ==> r.acc == Pass(vec, PeMode(inst.mode))
    ensures IsSubOp(codes, inst, codes.out) ==> r.output == Some(Out(acc, PeMode(inst.mode)))
  {
    var p := PeMode(inst.mode);
    if inst.opcode == codes.rnd then
      PeStep(Rnd(acc, p, inst.value), false, None)
    else if inst.value == codes.mac then
      PeStep(Mac(acc, mat, vec, p), true, None)
    else if inst.value == codes.pass then
      PeStep(Pass(vec, p), true, None)
    else if inst.value == codes.out then
      PeStep(acc, false, Some(Out(acc, p)))
    else if inst.value == codes.clr then
      PeStep(0, false, None)
    else
      // NOP, and any sub-opcode the decode does not recognise
      PeStep(acc, false, None)
  }

  // ---------------------------------------------------------------------------
  // Properties
  // ---------------------------------------------------------------------------

  /** RND by 0 leaves accumulator lane i as it was. */
  lemma RndZeroLane(acc: nat, p: Precision, i: nat)
    requires i < p.LaneCount()
    ensures Lane(Rnd(acc, p, 0), i, p.AccWidth()) == Lane(acc, i, p.AccWidth())
  {
    var w := p.AccWidth();
    var v := ToSigned(Lane(acc, i, w), w);
    assert Pow2(0) == 1;
    assert v / Pow2(0) == v;
    SignedDetermines(Lane(Rnd(acc, p, 0), i, w), Lane(acc, i, w), w);
  }

  /** RND by 0 is the identity on the accumulator. */
  lemma RndZeroIdentity(acc: nat, p: Precision)
    requires acc < Pow2(ACC_BITS)
    ensures Rnd(acc, p, 0) == acc
  {
    var w, n := p.AccWidth(), p.LaneCount();
    PrecisionTiles(p);
    forall i | 0 <= i < n
      ensures Lane(Rnd(acc, p, 0), i, w) == Lane(acc, i, w)
    {
      RndZeroLane(acc, p, i);
    }
    LanesDetermine(Rnd(acc, p, 0), acc, n, w);
  }

  /** After PASS, OUT lane i gives back vector lane i. */
  lemma PassOutLane(vec: nat, p: Precision, i: nat)
    requires i < p.LaneCount()
    ensures Lane(Out(Pass(vec, p), p), i, p.InWidth()) == Lane(vec, i, p.InWidth())
  {
    var iw, aw := p.InWidth(), p.AccWidth();
    var passLanes := PassLanes(vec, p);
    var v := Lane(vec, i, iw);
    PrecisionTiles(p);
    LaneOfPack(passLanes, aw, i);
    ModSmall(passLanes[i], Pow2(aw));
    SignExtendLow(v, iw, aw);
    ModSmall(v, Pow2(iw));
  }

  /** PASS then OUT in the same precision outputs exactly the vector operand. */
  lemma PassThenOut(vec: nat, p: Precision)
    requires vec < Pow2(WORD_BITS)
    ensures Out(Pass(vec, p), p) == vec
  {
    var n, iw := p.LaneCount(), p.InWidth();
    PrecisionTiles(p);
    forall k | 0 <= k < n
      ensures Lane(Out(Pass(vec, p), p), k, iw) == Lane(vec, k, iw)
    {
      PassOutLane(vec, p, k);
    }
    LanesDetermine(Out(Pass(vec, p), p), vec, n, iw);
  }

  /** PASS depends on neither the prior accumulator nor the matrix operand. */
  lemma PassIgnoresAccumulatorAndMatrix(codes: PeCodes, acc1: nat, acc2: nat, inst: PeInst,
                                        mat1: nat, mat2: nat, vec: nat)
    requires codes.Valid() && acc1 < Pow2(ACC_BITS) && acc2 < Pow2(ACC_BITS)
    requires IsSubOp(codes, inst, codes.pass)
    ensures Step(codes, acc1, inst, mat1, vec) == Step(codes, acc2, inst, mat2, vec)
    ensures Step(codes, acc1, inst, mat1, vec).acc == Pass(vec, PeMode(inst.mode))
  {
  }

  /** The signed product of operand lane i. */
  function LaneProduct(mat: nat, vec: nat, p: Precision, i: nat): int
  {
    ToSigned(Lane(mat, i, p.InWidth()), p.InWidth()) * ToSigned(Lane(vec, i, p.InWidth()), p.InWidth())
  }

  /** MAC into a lane that holds the wrapped value s leaves the wrapped value s + product. */
  lemma MacAccumulates(acc: nat, s: int, mat: nat, vec: nat, p: Precision, i: nat)
    requires i < p.LaneCount() && Lane(acc, i, p.AccWidth()) == FromSigned(s, p.AccWidth())
    ensures Lane(Mac(acc, mat, vec, p), i, p.AccWidth()) == FromSigned(s + LaneProduct(mat, vec, p, i), p.AccWidth())
  {
    WrapAdd(s, LaneProduct(mat, vec, p, i), p.AccWidth());
  }

  /** OUT of a lane that holds the wrapped value s outputs s wrapped to the operand width. */
  lemma OutTruncates(acc: nat, s: int, p: Precision, i: nat)
    requires i < p.LaneCount() && Lane(acc, i, p.AccWidth()) == FromSigned(s, p.AccWidth())
    ensures Lane(Out(acc, p), i, p.InWidth()) == FromSigned(s, p.InWidth())
  {
    ModOfMod(s, p.InWidth(), p.AccWidth());
  }

  /** Every lane of the cleared accumulator holds 0. */
  lemma ClearedLane(p: Precision, i: nat)
    ensures Lane(0, i, p.AccWidth()) == FromSigned(0, p.AccWidth())
  {
    assert Shr(0, i * p.AccWidth()) == 0;
  }

  /** After CLR and two MACs, every accumulator lane holds the wrapped sum of the two lane products. */
  lemma ClearMacMac(m1: nat, v1: nat, m2: nat, v2: nat, p: Precision, i: nat)
    requires i < p.LaneCount()
    ensures Lane(Mac(Mac(0, m1, v1, p), m2, v2, p), i, p.AccWidth())
         == FromSigned(LaneProduct(m1, v1, p, i) + LaneProduct(m2, v2, p, i), p.AccWidth())
  {
    var a := LaneProduct(m1, v1, p, i);
    var acc1 := Mac(0, m1, v1, p);
    ClearedLane(p, i);
    MacAccumulates(0, 0, m1, v1, p, i);
    assert Lane(acc1, i, p.AccWidth()) == FromSigned(a, p.AccWidth());
    MacAccumulates(acc1, a, m2, v2, p, i);
  }

  /** After CLR, two MACs and an OUT, every output lane is the sum of the two lane products,
      truncated to the operand lane width. */
  lemma ClearMacMacOut(m1: nat, v1: nat, m2: nat, v2: nat, p: Precision, i: nat)
    requires i < p.LaneCount()
    ensures Lane(Out(Mac(Mac(0, m1, v1, p), m2, v2, p), p), i, p.InWidth())
         == FromSigned(LaneProduct(m1, v1, p, i) + LaneProduct(m2, v2, p, i), p.InWidth())
  {
    ClearMacMac(m1, v1, m2, v2, p, i);
    OutTruncates(Mac(Mac(0, m1, v1, p), m2, v2, p), LaneProduct(m1, v1, p, i) + LaneProduct(m2, v2, p, i), p, i);
  }
}

=== FILE: sequencer.dfy ===
/**
  The top-level sequencer of the hardware implementation: it pops one compound instruction
  and issues its memory instruction and its processing-element instruction count + 1 times.
  Iteration k carries the memory offsets of iteration 0 advanced by k when the matching
  increment flag is set; the offsets are 10-bit registers, so they wrap at 1024. Every
  iteration sends the memory instruction to the buffer and the same processing-element
  instruction to each of the N_PE lanes.
 */
module Sequencer {
  import opened Bits
  import opened Isa

  /** One iteration's issue: the memory instruction with its offsets for this iteration, and
      the processing-element instruction for each lane, lane 0 first. */
  datatype Issue = Issue(mem: MemInst, lanes: seq<PeInst>)

  /** Width of the loop counter; it must count one past the largest `count`. */
  const COUNTER_BITS := 11

  /** Reference definition: the value of an offset register at iteration k, starting at
      `base` and advanced once per iteration when `inc` is set. */
  function OffsetAt(base: nat, inc: bool, k: nat): nat
  {
    if inc then (base + k) % Pow2(OFFSET_BITS) else base
  }

  /** Reference definition: what iteration k of `ci` issues. */
  function IssueAt(ci: Instruction, k: nat): Issue
  {
    Issue(ci.mem.(memaOffset := OffsetAt(ci.mem.memaOffset, ci.memaInc, k),
                  membOffset := OffsetAt(ci.mem.membOffset, ci.membInc, k)),
          seq(N_PE, _ => ci.pe))
  }

  /** Reference definition: everything `ci` issues, in order. */
  function Trace(ci: Instruction): seq<Issue>
  {
    seq(ci.count + 1, k requires 0 <= k <= ci.count => IssueAt(ci, k))
  }

  /** One step of a 10-bit offset register, wrapping at 1024. */
  function Advance(offset: nat, inc: bool): (r: nat)
    requires offset < Pow2(OFFSET_BITS)
    ensures r < Pow2(OFFSET_BITS)
    ensures inc && offset + 1 < Pow2(OFFSET_BITS) ==> r == offset + 1
    ensures inc && offset + 1 == Pow2(OFFSET_BITS) ==> r == 0
    ensures !inc ==> r == offset
  {
    if inc then (offset + 1) % Pow2(OFFSET_BITS) else offset
  }

  /** Advancing the register at iteration k gives the register at iteration k + 1. */
  lemma AdvanceOffsetAt(base: nat, inc: bool, k: nat)
    requires base < Pow2(OFFSET_BITS)
    ensures OffsetAt(base, inc, k) < Pow2(OFFSET_BITS)
    ensures Advance(OffsetAt(base, inc, k), inc) == OffsetAt(base, inc, k + 1)
  {
    if inc {
      ModSucc(base + k, Pow2(OFFSET_BITS));
    }
  }

  /** (x mod p + 1) mod p = (x + 1) mod p. */
  lemma ModSucc(x: nat, p: nat)
    requires p > 0
    ensures (x % p + 1) % p == (x + 1) % p
  {
    var q, s := x / p, x % p;
    Bits.ModUnique(x, p, q, s);
    if s + 1 < p {
      Bits.ModUnique(x + 1, p, q, s + 1);
      Bits.ModUnique(s + 1, p, 0, s + 1);
    } else {
      Bits.ModUnique(x + 1, p, q + 1, 0);
      Bits.ModUnique(s + 1, p, 1, 0);
    }
  }

  /** Two values less than p apart, and not equal, differ mod p. */
  lemma DistinctMod(a: nat, d: nat, p: nat)
    requires 0 < d < p
    ensures a % p != (a + d) % p
  {
    var q, s := a / p, a % p;
    Bits.ModUnique(a, p, q, s);
    if s + d < p {
      Bits.ModUnique(a + d, p, q, s + d);
    } else {
      Bits.ModUnique(a + d, p, q + 1, s + d - p);
    }
  }

  /** The issue loop: for i = 0 .. count it issues the current offsets to the buffer and the
      processing-element instruction to every lane, then advances the enabled offsets. */
  method Expand(ci: Instruction) returns (issues: seq<Issue>)
    requires ci.WellFormed()
    ensures |issues| == ci.count + 1
    ensures forall k :: 0 <= k < |issues| ==> issues[k] == IssueAt(ci, k)
  {
    var memaOffset := ci.mem.memaOffset;
    var membOffset := ci.mem.membOffset;
    var memInst := ci.mem;
    issues := [];
    var i: nat := 0;
    while i <= ci.count
      invariant i <= ci.count + 1 < Pow2(COUNTER_BITS)
      invariant |issues| == i
      invariant memaOffset == OffsetAt(ci.mem.memaOffset, ci.memaInc, i)
      invariant membOffset == OffsetAt(ci.mem.membOffset, ci.membInc, i)
      invariant memInst.opcode == ci.mem.opcode && memInst.mode == ci.mem.mode
      invariant forall k :: 0 <= k < i ==> issues[k] == IssueAt(ci, k)
      decreases ci.count + 1 - i
    {
      memInst := memInst.(memaOffset := memaOffset, membOffset := membOffset);
      var lanes: seq<PeInst> := [];
      var pe := 0;
      while pe < N_PE
        invariant 0 <= pe <= N_PE
        invariant |lanes| == pe
        invariant forall j :: 0 <= j < pe ==> lanes[j] == ci.pe
      {
        lanes := lanes + [ci.pe];
        pe := pe + 1;
      }
      issues := issues + [Issue(memInst, lanes)];
      AdvanceOffsetAt(ci.mem.memaOffset, ci.memaInc, i);
      AdvanceOffsetAt(ci.mem.membOffset, ci.membInc, i);
      memaOffset := Advance(memaOffset, ci.memaInc);
      membOffset := Advance(membOffset, ci.membInc);
      i := i + 1;
    }
  }

  /** The expansion loop computes the reference trace. */
  lemma ExpandIsTrace(ci: Instruction, issues: seq<Issue>)
    requires ci.WellFormed()
    requires |issues| == ci.count + 1
    requires forall k :: 0 <= k < |issues| ==> issues[k] == IssueAt(ci, k)
    ensures issues == Trace(ci)
  {
  }

  // ---------------------------------------------------------------------------
  // Properties of the trace of one instruction
  // ---------------------------------------------------------------------------

  /** Every iteration keeps the opcode and mode of the memory instruction and gives every
      lane the same processing-element instruction, unchanged. */
  lemma TraceShape(ci: Instruction, k: nat)
    requires ci.WellFormed() && k <= ci.count
    ensures var t := Trace(ci)[k];
      && t.mem.opcode == ci.mem.opcode && t.mem.mode == ci.mem.mode
      && |t.lanes| == N_PE
      && (forall j :: 0 <= j < N_PE ==> t.lanes[j] == ci.pe)
      && t.mem.memaOffset < Pow2(OFFSET_BITS) && t.mem.membOffset < Pow2(OFFSET_BITS)
  {
  }

  /** Iteration 0 uses the offsets written in the instruction. */
  lemma FirstIssueUsesBase(ci: Instruction)
    requires ci.WellFormed()
    ensures Trace(ci)[0].mem == ci.mem
  {
    Bits.ModUnique(ci.mem.memaOffset, Pow2(OFFSET_BITS), 0, ci.mem.memaOffset);
    Bits.ModUnique(ci.mem.membOffset, Pow2(OFFSET_BITS), 0, ci.mem.membOffset);
  }

  /** Consecutive iterations: an offset whose flag is set goes up by one, wrapping from 1023
      to 0; an offset whose flag is clear stays put. */
  lemma ConsecutiveIssues(ci: Instruction, k: nat)
    requires ci.WellFormed() && k < ci.count
    ensures Trace(ci)[k + 1].mem.memaOffset == Advance(Trace(ci)[k].mem.memaOffset, ci.memaInc)
    ensures Trace(ci)[k + 1].mem.membOffset == Advance(Trace(ci)[k].mem.membOffset, ci.membInc)
  {
    AdvanceOffsetAt(ci.mem.memaOffset, ci.memaInc, k);
    AdvanceOffsetAt(ci.mem.membOffset, ci.membInc, k);
  }

  /** Without increments, every iteration reads and writes the same place. */
  lemma NoIncrementRepeats(ci: Instruction)
    requires ci.WellFormed() && !ci.memaInc && !ci.membInc
    ensures forall k :: 0 <= k < |Trace(ci)| ==> Trace(ci)[k].mem == ci.mem
  {
  }

  /** With the matrix increment set, no two iterations of one instruction read the same
      matrix row: count is below 1024, so the 10-bit register cannot come round again. */
  lemma IncrementVisitsDistinctRows(ci: Instruction, k1: nat, k2: nat)
    requires ci.WellFormed() && ci.memaInc && k1 < k2 <= ci.count
    ensures Trace(ci)[k1].mem.memaOffset != Trace(ci)[k2].mem.memaOffset
  {
    DistinctMod(ci.mem.memaOffset + k1, k2 - k1, Pow2(OFFSET_BITS));
  }

  // ---------------------------------------------------------------------------
  // A program: instructions executed one after another
  // ---------------------------------------------------------------------------

  /** Reference definition: the issues of a program are the traces of its instructions, in
      order; each instruction starts from its own offsets. */
  function ProgramTrace(prog: seq<Instruction>): seq<Issue>
  {
    if |prog| == 0 then [] else Trace(prog[0]) + ProgramTrace(prog[1..])
  }

  /** Position of instruction j's first issue in a program trace. */
  function BlockStart(prog: seq<Instruction>, j: nat): nat
    requires j <= |prog|
  {
    if j == 0 then 0 else prog[0].count + 1 + BlockStart(prog[1..], j - 1)
  }

  /** Iteration k of instruction j sits at BlockStart(prog, j) + k, so no state carries from
      one instruction to the next. */
  lemma {:induction false} ProgramBlock(prog: seq<Instruction>, j: nat, k: nat)
    requires j < |prog| && k <= prog[j].count
    ensures BlockStart(prog, j) + k < |ProgramTrace(prog)|
    ensures ProgramTrace(prog)[BlockStart(prog, j) + k] == IssueAt(prog[j], k)
    decreases j
  {
    var head := Trace(prog[0]);
    assert ProgramTrace(prog) == head + ProgramTrace(prog[1..]);
    if j > 0 {
      ProgramBlock(prog[1..], j - 1, k);
      assert prog[1..][j - 1] == prog[j];
    }
  }

  /** A program issues, in all, the sum of count + 1 over its instructions. */
  lemma {:induction false} ProgramLength(prog: seq<Instruction>)
    ensures |ProgramTrace(prog)| == BlockStart(prog, |prog|)
  {
    if |prog| > 0 {
      ProgramLength(prog[1..]);
    }
  }
}

=== FILE: wrappers.dfy ===
/** Optional values and results with an error, as used by the models of the cycle inputs
    and of the operations that raise in the golden model. */
module Wrappers {

  /** A value that may be absent, such as a non-blocking pop that found its channel empty. */
  datatype Option<+T> = None | Some(value: T) {
    /** The value, or the given error when it is absent. */
    function ToResult<E>(error: E): (r: Result<T, E>)
      ensures r.Success? <==> Some?
      ensures r.Success? ==> r.value == value
      ensures r.Failure? ==> r.error == error
    {
      match this
      case Some(v) => Success(v)
      case None => Failure(error)
    }
  }

  /** The outcome of an operation that either returns a value or raises an error. */
  datatype Result<+T, +E> = Success(value: T) | Failure(error: E) {
    predicate IsFailure() {
      Failure?
    }

    function PropagateFailure<U>(): Result<U, E>
      requires Failure?
    {
      Failure(error)
    }

    function Extract(): T
      requires Success?
    {
      value
    }
  }
}
